=== FILE: README.md ===
# BRIMA record persistence and search, modelled in Dafny

BRIMA is a records tool for a barangay, a small Philippine local-government unit. It keeps
households, residents, staff user accounts, blotters (dispute logs) and issued certificates in
an SQLite database through SQLAlchemy. This project models the part of it with real rules:

- the household and resident windows' searches: a query is split into tokens, and every token
  must match one of a fixed set of columns with `ilike '%token%'`;
- the listings and the rows shown for them;
- the writes that add and update households and residents, with their upper-case
  normalisation and their resolution of a household chosen by name;
- the first-run setup wizard's page checks and its four linked inserts;
- the two schema snapshots the code is written against.

The store is a `Db` of six tables. Each table is a sequence of `Row`s in rowid order: a
primary key, the `date_added` column and the record's own columns. SQLite's behaviour is
written out where it matters:

- a new rowid is one more than the largest stored key;
- text is ordered code point by code point, and NULL sorts first;
- `LIKE` is evaluated with `%` and `_` as wildcards;
- PRIMARY KEY and UNIQUE constraints are checked when a commit happens;
- foreign keys are declared but not enforced.

Each write returns an `Outcome`: the new store and a status, which is either `Saved` or the
reason it was refused. Whether the environment lets a commit through is the parameter
`accepted`. The contracts state:

- what is stored;
- what is left untouched;
- when an operation is refused;
- that the store's keys, UNIQUE columns and foreign keys stay valid.

Modules, leaves first:

- `Options`, `Text`: Python's `strip`, `split`, `upper`, `lower` and `" ".join(filter(None, …))`.
- `Like`: SQL `LIKE` and `ilike`.
- `Schema`, `LegacySchema`: the schemas.
- `Sequences`, `Ordering`: filtering and ORDER BY.
- `Search`: the searches.
- `Display`: the rows the tables show.
- `Fields`: the dialogs' field maps.
- `Session`: commit and rollback.
- `Controller`: the window writes.
- `Wizard`: the setup wizard.

## Model

| member | source | states |
|---|---|---|
| Schema.Find | controller.py:120 | `get(id)` returns a stored row carrying that key, and returns nothing exactly when no row has the key |
| Schema.NextId | app/model.py:10 | the key given to an inserted row is larger than every stored key, so it is not already in use; it is positive in a well-keyed table |
| Schema.Insert | app/model.py:10-11 | `add` appends one row and leaves the earlier rows as they were; the new row has the next key and today's `date_added`; the set of keys grows by exactly that key; the table stays well keyed |
| Schema.Replace | controller.py:156-160 | assigning columns to the row with a given key changes only that row's columns; every key and insert date stays, and so does the set of keys |
| Schema.ResidentsOf | app/model.py:55 | `Household.residents` holds exactly the stored residents whose `household_id` is that household, in table order |
| Schema.UserOf | app/model.py:43 | `Resident.user` finds an account that points at the resident, or reports that no account does |
| Schema.CertificatesOf | app/model.py:44 | `Resident.certificates` holds exactly the certificates whose `resident_id` is that resident, in table order |
| Schema.AtMostOneUser | app/model.py:63 | with `resident_id` UNIQUE, at most one account points at any resident |
| Schema.HouseholdRelationshipInverse | app/model.py:40-42 | in a store whose foreign keys hold, a resident's household is stored and the resident is among that household's residents |
| Schema.CertificateRelationshipInverse | app/model.py:84-86 | in a store whose foreign keys hold, a certificate's resident is stored and the certificate is among that resident's certificates |
| LegacySchema.ProjectMigrate | model.py:5-9 | an earlier-schema store, embedded into the current schema and projected back, is unchanged |
| LegacySchema.ProjectKeepsValid | model.py:44-49 | a valid current store is valid under the earlier schema: keys, UNIQUE username, resident to household |
| LegacySchema.MigrateKeepsValid | app/model.py:57-65 | a valid earlier store embeds as a valid current store; its accounts have no resident, so UNIQUE `resident_id` holds |
| Session.Commit | controller.py:107-114 | a commit succeeds exactly when the environment allows it and no key or UNIQUE constraint is violated; otherwise the rollback leaves the store as it was |
| Like.ILikeIsSubstring | controller.py:63 | for a token without `%` or `_`, `column ilike '%token%'` holds exactly when the lower-case token occurs in the lower-case column |
| Like.ILikeIgnoresUpper | controller.py:103 | when stored values are upper-cased with the case table SQL `lower()` undoes, as for ASCII text, upper-casing a stored value never changes an `ilike` test |
| Like.ILikeMissesUpperLatin1 | controller.py:63 | a name typed "peña" matches the query "peña", but once stored upper-cased by Python as "PEÑA" it does not, because SQLite lowers only ASCII capitals |
| Ordering.Sort | controller.py:39 | the listing is a permutation of the table in ORDER BY order |
| Ordering.SortedUnique | controller.py:74 | two permutations of a table with distinct keys that are both in ORDER BY order are equal |
| Search.Tokens | controller.py:52-53 | every token is a non-empty lower-case word without whitespace; there are none exactly when the query is blank |
| Search.TokensOfWords | controller.py:52-53 | a query of words separated by single spaces has exactly those words, lower-cased and in order, as its tokens |
| Search.TokensConcat | controller.py:53 | the tokens of `a b` are the tokens of `a` followed by those of `b` |
| Search.MatchesAllIsSubstring | controller.py:58-71 | the AND of ORs holds exactly when every token occurs, ignoring case, inside one of the searched columns |
| Search.ListHouseholdsIsCanonical | controller.py:39 | the household listing is the only ordering of the table by name, ties broken by key |
| Search.SearchHouseholds | controller.py:51-74 | a household is found exactly when it is stored and every token hits one of its five columns; the result keeps listing order; a blank query gives the whole listing |
| Search.SearchHouseholdsNarrows | controller.py:59-71 | what `a b` finds, `a` finds too, in the same relative order |
| Search.SearchHouseholdsIsWhereThenOrder | controller.py:71-74 | filtering the ordered listing equals ordering the filtered table |
| Search.HouseholdOf | controller.py:293 | `resident.household` is the stored household whose key is the resident's `household_id`; it is missing exactly when that id is NULL or not stored |
| Search.SearchResidents | controller.py:253-281 | a resident is found exactly when its household is stored and every token hits one of the ten joined columns; the result keeps listing order |
| Search.ResidentHitMeaning | controller.py:258-278 | the inner join spelled out: some stored household carries the resident's `household_id`, and every token hits the resident's five columns or that household's five |
| Search.EmptyResidentSearch | controller.py:258-261 | a blank query still drops every resident whose household is not stored |
| Search.SearchResidentsNarrows | controller.py:261-278 | what `a b` finds, `a` finds too, in the same relative order |
| Search.SearchResidentsIsWhereThenOrder | controller.py:278-281 | filtering the ordered resident listing equals ordering the filtered table |
| Display.Address | controller.py:78-83 | the address is empty exactly when all four parts are empty |
| Display.AddressRoundTrip | controller.py:78-83 | splitting an address whose parts contain no spaces gives back the non-empty parts, in order |
| Display.AddressShape | controller.py:302 | an address built from trimmed parts has no surrounding whitespace |
| Display.FullNameFormat | controller.py:286-291 | for name parts without surrounding whitespace, the full name reads "LAST, GIVEN", or "LAST," when first name, middle name and suffix are all empty |
| Display.SearchHouseholdTable | controller.py:76-92 | a line is shown exactly when it is the line of a matching stored household: its key, name and joined address |
| Display.EmptyHouseholdSearchIsListing | controller.py:37-49 | with the search's address format, a blank search shows exactly the listing |
| Display.RefreshAddressAgreesWhenComplete | controller.py:45 | the listing's f-string address equals the search's address when all four parts are present |
| Display.RefreshAddressDiffers | controller.py:45 | for a household with an empty part, for example no landmark, the f-string address differs from the search's address and is longer |
| Display.RefreshAddressAgreesIff | controller.py:45 | the listing's f-string address equals the search's address exactly when none of the four parts is empty |
| Display.RefreshTableAsWrittenDiffers | controller.py:37-49 | with that household stored, the listing as written and a blank search show different tables |
| Display.SearchResidentTable | controller.py:284-314 | every line of the resident search names a stored household, and there are no more lines than residents |
| Display.EmptyResidentSearchIsListingIff | controller.py:253-258 | a blank resident search shows the listing exactly when every resident's household is stored |
| Display.UnhousedResidentOnlyInListing | controller.py:231-238 | a resident whose household is missing appears in the listing with "N/A" and an empty address, and no search finds it |
| Fields.UpperStrings | controller.py:103 | the dictionary comprehension keeps every key, upper-cases every text value, changing only letter case, and leaves dates alone |
| Fields.UpperStringsIdempotent | controller.py:154 | upper-casing a field map twice is upper-casing it once |
| Fields.UpperStringsFixedPoints | controller.py:358 | a field map is left unchanged exactly when its text is already upper-case |
| Fields.UpperHouseholdIsUpperStrings | controller.py:103-105 | the household built from the upper-cased dictionary is the household with every column upper-cased |
| Fields.UpperFormIsUpperStrings | controller.py:355-361 | upper-casing the resident dialog's values is the comprehension on its field map |
| Controller.AddHousehold | controller.py:94-114 | if saved, exactly one household is appended, with the upper-cased values, today's date and a fresh key, and nothing else changes; otherwise nothing is written; in a store the database accepts, it is saved exactly when the commit goes through; validity is kept |
| Controller.UpdateHousehold | controller.py:152-167 | only the edited household's columns change, to the upper-cased values, and its key and date stay; an unknown key writes nothing; saved exactly when the commit goes through; validity is kept |
| Controller.BuildHouseholdIndex | controller.py:320-321 | the name-to-id dictionary has an entry for every listed name, holding the id of the last listed household with that name |
| Controller.IndexedByUnique | controller.py:321 | the dictionary is determined by the listing |
| Controller.IndexPointsAtNamedHousehold | controller.py:346 | every dictionary entry leads to a stored household of that name |
| Controller.IndexFindsUniqueName | controller.py:321 | a household whose name no other household shares is found under its own id |
| Controller.AddResident | controller.py:335-375 | an empty household choice is refused with "Please select a Household."; a name without a non-zero id is refused with "No matching Household …"; a saved resident is appended with every dialog value upper-cased, the birth date as entered, NULL citizenship, today's date, a fresh key and the chosen household when it is stored; refused commits write nothing; validity is kept |
| Controller.AddResidentLinksChosenHousehold | controller.py:346-362 | with the dictionary built over the current listing, a saved resident is linked to a stored household that carries the chosen name |
| Controller.ApplyResidentUpdate | controller.py:481-495 | the four name columns are the entered names upper-cased; phones, e-mail, occupation, civil status, education, remarks, sex, role and birth date are copied as entered; citizenship is untouched and the household link is set |
| Controller.ResidentUpdateCopiesVerbatim | controller.py:481-494 | with upper-case names entered, the update is exactly the dialog's values, with the citizenship kept |
| Controller.UpdateResident | controller.py:464-504 | a choice without a non-zero id is refused with "Please select a valid household."; an id not stored is refused with "Selected household does not exist."; otherwise only the edited resident changes; saved exactly when the commit goes through; validity is kept |
| Wizard.ValidateBarangay | wizard.py:37-41 | the page is refused, with its message, exactly when the barangay name is blank |
| Wizard.ValidateHousehold | wizard.py:64-68 | the page is refused, with its message, exactly when the household name is blank |
| Wizard.ValidateResident | wizard.py:143-150 | the page passes exactly when first name, last name and citizenship are not blank; blank names are reported before a blank citizenship |
| Wizard.ValidateUser | wizard.py:173-180 | the page passes exactly when username and password are not blank and the stripped password equals the stripped confirmation; blank entries are reported before a mismatch |
| Wizard.Normalize | wizard.py:203 | `strip().upper()` yields trimmed upper-case text equal, ignoring case, to the entry without its surrounding whitespace; it is empty exactly when the entry is blank |
| Wizard.NormalizeIsDetermined | wizard.py:203 | those properties leave one possible result: any upper-case text equal to the stripped entry ignoring case is the normalized entry |
| Wizard.NormalizeIdempotent | wizard.py:203-234 | normalising twice is normalising once |
| Wizard.Accept | wizard.py:201-271 | if saved, one barangay, household, resident and user are appended; every barangay and household column and every resident column but the e-mail is the entry stripped and upper-cased; the resident is linked to the new household and the user to the new resident; username, password and e-mail are stored only stripped; in a valid store it is saved exactly when the commit goes through and the username is not already taken; validity is kept; on failure nothing is stored |
| Wizard.AcceptUniqueness | wizard.py:263-271 | the new account violates a UNIQUE column exactly when its username is taken, because its resident is new |
| Wizard.AcceptStoresValidatedEntries | wizard.py:201-235 | after pages that passed validation, the stored barangay name, household name, first name, last name and citizenship are non-empty, trimmed, upper-case and equal to the entry ignoring case and surrounding whitespace; the stored username and password are non-empty and only stripped, and the password equals the confirmation |
| Wizard.AcceptStoresChoices | wizard.py:211-234 | values picked from the combo boxes are stored as entries of their lists; the role is stored as HEAD, SPOUSE or CHILD |
| Wizard.RolesStoredUpper | wizard.py:129 | the mixed-case roles offered are stored in upper case |

## Left out

- The Qt layer is not modelled: dialogs, message boxes, the table widgets and the household autofill in the resident dialog. An accepted dialog is modelled as the operation being called; a refusal message is a `Failure` value.
- Household and resident deletion, browse, and the user window are not part of this model, and neither are blotters and certificates beyond their schema.
- Each window controller opens its own session, with its own identity map (controller.py:25, controller.py:211). The resident window keeps the households it has loaded, through `resident.household` and through the name-to-id dictionary, until it commits or rolls back itself. It can therefore show, and key its household choice by, a household name that the household window has since changed. The model reads the one current store everywhere.
- Login and any credential check are not part of this model: no such code exists in the modelled files, and passwords are stored stripped but otherwise as entered.
- Why a commit fails beyond PRIMARY KEY and UNIQUE (a locked or unwritable file) is the parameter `accepted`. The wizard's commit has no exception handler; a failure there is modelled as nothing stored.
- `date_of_birth` comes from a date widget and is taken as a `Date`; no date conversion is modelled.
- Case mapping covers ASCII letters only. Python's `upper()` and `lower()` use the full Unicode case tables, while SQLite's `lower()` and `LIKE` fold ASCII letters only. The model uses one ASCII table throughout, except for the Latin-1 letters in the ñ finding below.
- Like.ILikeIgnoresUpper: holds for ASCII text only. For other letters the program's upper-casing on write and SQLite's lowering on search disagree, as `Like.ILikeMissesUpperLatin1` shows.
- A NULL text column is modelled as the empty string. The writes modelled here never store NULL in a text column other than citizenship, which no search or listing reads. In a store with NULL text columns the model differs from the program in three places:
  - a token made only of `%` gives the pattern `%%%`, which matches "" but not NULL;
  - the full-name f-strings at controller.py:229 and controller.py:291 render a NULL last name as "None";
  - ORDER BY puts NULL before "", while the model treats them as equal and orders them by key.
- Display.FullNameFormat: limited to name parts without surrounding whitespace, as the wizard stores them. The controllers upper-case names without stripping them, and for a first name " " with no middle name or suffix the full name is "CRUZ," although the given names are not empty.
- ORDER BY leaves ties unordered. The model breaks them by primary key, so listings with equal names or equal (last name, household) pairs are one admissible order among several.
- The resident dialog's `get_fields` lives in form code outside this model. Its keys are taken to be the ones `edit` passes to `set_fields`. The household combo's text is taken as the dialog's `household` value.
- Ordering.SortedUnique: states uniqueness for tables whose rows are determined by their keys, which every well-keyed table satisfies; it says nothing about tables with duplicate keys.
- Display.SearchResidentTable: states that every shown household exists and bounds the row count; the exact rows follow from `Search.SearchResidents` and `Display.ResidentLineOf`.
- The code has none of the following rules, and the model does not add them:
  - no case-insensitive uniqueness of household names or of resident names;
  - no password hashing;
  - no get-or-create for the barangay: the wizard always inserts one;
  - no database check of the sitio, civil status, sex, education, role or position values;
  - a resident's household may be NULL: the add path stores NULL when the chosen id is no longer stored.
- controller.py and wizard.py import their records from model.py. That snapshot has no `date_added`, no `Barangay`, no `Certificate` and no user-to-resident link, so the wizard's import cannot succeed against it. The operations are modelled on app/model.py, and `LegacySchema` relates the two snapshots.

## Findings

| source | as written | input that shows it | evidently intended | confidence | as-written member | corrected member |
|---|---|---|---|---|---|---|
| controller.py:45 | the household listing builds the address with an f-string that puts a space between all four parts, even when a part is empty | a household with house number "12", street "RIZAL", sitio "CASARATAN" and no landmark is listed as "12 RIZAL CASARATAN " | the non-empty parts joined by single spaces, as the search builds it at controller.py:78-83, so that a blank search and the listing agree | not executed | Display.RefreshAddressDiffers | Display.EmptyHouseholdSearchIsListing |
| controller.py:358 | stored text is upper-cased with Python's `upper()`, which maps every Unicode letter, while the search folds case with SQLite's `lower()`, which maps ASCII capitals only | a resident "Peña" is stored as "PEÑA", which SQLite lowers to "peÑa", so the query "peña" does not find it | stored values found by any case of their text, which needs the same case table on write and on search | not executed; the "PEÑA" comparison follows from SQLite's documented ASCII-only `lower()` | Like.ILikeMissesUpperLatin1 | Like.ILikeIgnoresUpper |

=== FILE: controller.dfy ===
/** The writes of the household and resident windows (controller.py): adding and updating a
    household, and adding and updating a resident, whose household is chosen BY NAME from a
    dictionary built over the household listing and resolved to an id before anything is
    written. */
module Controller {
  import opened Options
  import opened Text
  import opened Schema
  import opened Search
  import opened Fields
  import opened Session

  // ----- households -----

  /** Everything but the household table is as it was. */
  predicate OnlyHouseholdsChanged(a: Db, b: Db) {
    a.barangays == b.barangays && a.residents == b.residents && a.users == b.users
    && a.blotters == b.blotters && a.certificates == b.certificates
  }

  /** Everything but the resident table is as it was. */
  predicate OnlyResidentsChanged(a: Db, b: Db) {
    a.barangays == b.barangays && a.households == b.households && a.users == b.users
    && a.blotters == b.blotters && a.certificates == b.certificates
  }

  /** `HouseholdWindowController.add` once the dialog is accepted: the entered values are
      upper-cased and stored as one new household. */
  function AddHousehold(db: Db, entered: Household, today: Date, accepted: bool): (o: Outcome)
    ensures o.status != Saved ==> o == Outcome(db, Rejected(CommitFailed))
    ensures o.status == Saved ==>
      && OnlyHouseholdsChanged(db, o.db)
      && |o.db.households| == |db.households| + 1
      && o.db.households[..|db.households|] == db.households
      && var added := o.db.households[|db.households|];
         added.rec == UpperHousehold(entered) && added.dateAdded == today
         && !HasId(db.households, added.id)
    ensures Enforced(db) ==> (o.status == Saved <==> accepted)
    ensures Valid(db) ==> Valid(o.db)
  {
    var after := db.(households := Insert(db.households, UpperHousehold(entered), today));
    assert Valid(db) ==> Referential(after);
    Commit(db, after, accepted)
  }

  /** `HouseholdWindowController.save_update`: the household keeps its key and insert date and
      takes the upper-cased entered values; no other row changes. */
  function UpdateHousehold(db: Db, id: int, entered: Household, accepted: bool): (o: Outcome)
    ensures !HasId(db.households, id) ==> o == Outcome(db, Rejected(NotFound))
    ensures o.status != Saved ==> o.db == db
    ensures o.status == Saved ==>
      && OnlyHouseholdsChanged(db, o.db)
      && |o.db.households| == |db.households|
      && forall i :: 0 <= i < |db.households| ==>
           o.db.households[i].id == db.households[i].id
           && o.db.households[i].dateAdded == db.households[i].dateAdded
           && o.db.households[i].rec
              == if db.households[i].id == id then UpperHousehold(entered) else db.households[i].rec
    ensures Enforced(db) && HasId(db.households, id) ==> (o.status == Saved <==> accepted)
    ensures Valid(db) ==> Valid(o.db)
  {
    if !HasId(db.households, id) then Outcome(db, Rejected(NotFound))
    else
      var after := db.(households := Replace(db.households, id, UpperHousehold(entered)));
      assert Valid(db) ==> Referential(after);
      Commit(db, after, accepted)
  }

  // ----- the household name dictionary -----

  /** Row `i` is the last row of `rows` named `name`. */
  predicate LastNamed(rows: seq<Row<Household>>, name: string, i: int) {
    0 <= i < |rows| && rows[i].rec.householdName == name
    && forall j :: i < j < |rows| ==> rows[j].rec.householdName != name
  }

  /** The name-to-id dictionary built over the listing: one entry per name, and for a name several
      rows share, the id of the last of them (a later key overwrites an earlier one). */
  ghost predicate IndexedBy(index: map<string, int>, rows: seq<Row<Household>>) {
    && (forall n :: n in index <==> exists i :: 0 <= i < |rows| && rows[i].rec.householdName == n)
    && (forall n :: n in index ==> exists i :: LastNamed(rows, n, i) && rows[i].id == index[n])
  }

  /** Adding one more row to the comprehension: its name now maps to its id. */
  lemma IndexedByExtend(index: map<string, int>, rows: seq<Row<Household>>, r: Row<Household>)
    requires IndexedBy(index, rows)
    ensures IndexedBy(index[r.rec.householdName := r.id], rows + [r])
  {
    var name := r.rec.householdName;
    var next := index[name := r.id];
    var ext := rows + [r];
    forall n | n in next
      ensures exists i :: LastNamed(ext, n, i) && ext[i].id == next[n]
    {
      if n == name {
        assert LastNamed(ext, n, |rows|);
      } else {
        var i :| LastNamed(rows, n, i) && rows[i].id == index[n];
        assert LastNamed(ext, n, i);
      }
    }
    forall n
      ensures n in next <==> exists i :: 0 <= i < |ext| && ext[i].rec.householdName == n
    {
      if n in next && n != name {
        var i :| 0 <= i < |rows| && rows[i].rec.householdName == n;
        assert ext[i] == rows[i];
      }
      if exists i :: 0 <= i < |ext| && ext[i].rec.householdName == n {
        var i :| 0 <= i < |ext| && ext[i].rec.householdName == n;
        if i < |rows| {
          assert rows[i] == ext[i];
        }
      }
      if n == name {
        assert ext[|rows|].rec.householdName == n;
      }
    }
  }

  /** The dictionary `add` and `edit` build over the household listing. */
  method BuildHouseholdIndex(db: Db) returns (index: map<string, int>)
    ensures IndexedBy(index, ListHouseholds(db))
  {
    var rows := ListHouseholds(db);
    index := map[];
    var i := 0;
    while i < |rows|
      invariant 0 <= i <= |rows|
      invariant IndexedBy(index, rows[..i])
    {
      IndexedByExtend(index, rows[..i], rows[i]);
      assert rows[..i + 1] == rows[..i] + [rows[i]];
      index := index[rows[i].rec.householdName := rows[i].id];
      i := i + 1;
    }
    assert rows[..i] == rows;
  }

  /** The dictionary is determined by the listing. */
  lemma IndexedByUnique(a: map<string, int>, b: map<string, int>, rows: seq<Row<Household>>)
    requires IndexedBy(a, rows) && IndexedBy(b, rows)
    ensures a == b
  {
    forall n | n in a
      ensures a[n] == b[n]
    {
      var i :| LastNamed(rows, n, i) && rows[i].id == a[n];
      var j :| LastNamed(rows, n, j) && rows[j].id == b[n];
      assert i == j;
    }
  }

  /** Every entry leads to a stored household of that name. */
  lemma IndexPointsAtNamedHousehold(db: Db, index: map<string, int>, name: string)
    requires IndexedBy(index, ListHouseholds(db))
    requires name in index
    ensures exists h :: h in db.households && h.rec.householdName == name && h.id == index[name]
  {
    var rows := ListHouseholds(db);
    var i :| LastNamed(rows, name, i) && rows[i].id == index[name];
    assert rows[i] in multiset(db.households);
  }

  /** A household whose name no other household shares is found under its own id. */
  lemma IndexFindsUniqueName(db: Db, index: map<string, int>, h: Row<Household>)
    requires IndexedBy(index, ListHouseholds(db))
    requires h in db.households
    requires forall g :: g in db.households && g.rec.householdName == h.rec.householdName ==> g == h
    ensures h.rec.householdName in index && index[h.rec.householdName] == h.id
  {
    var rows := ListHouseholds(db);
    var name := h.rec.householdName;
    assert h in multiset(rows);
    assert name in index by {
      var k :| 0 <= k < |rows| && rows[k] == h;
    }
    var i :| LastNamed(rows, name, i) && rows[i].id == index[name];
    assert rows[i] in multiset(db.households);
    assert rows[i] == h;
  }

  // ----- residents -----

  /** `ResidentWindowController.on_add_button_click`. The chosen household name must be
      non-empty and map to a non-zero id; the stored link is that id when the household is
      stored and NULL otherwise (`get` returned None). Every text value is upper-cased. */
  function AddResident(db: Db, form: ResidentForm, index: map<string, int>, today: Date,
                       accepted: bool): (o: Outcome)
    ensures form.household == [] ==> o == Outcome(db, Rejected(NoHouseholdSelected))
    ensures form.household != [] && (form.household !in index || index[form.household] == 0) ==>
      o == Outcome(db, Rejected(NoMatchingHousehold(form.household)))
    ensures o.status != Saved ==> o.db == db
    ensures o.status == Saved ==>
      && form.household in index
      && OnlyResidentsChanged(db, o.db)
      && |o.db.residents| == |db.residents| + 1
      && o.db.residents[..|db.residents|] == db.residents
      && var added := o.db.residents[|db.residents|];
         && added.dateAdded == today && !HasId(db.residents, added.id)
         && added.rec.firstName == Upper(form.firstName) && added.rec.lastName == Upper(form.lastName)
         && added.rec.email == Upper(form.email) && added.rec.role == Upper(form.role)
         && added.rec.dateOfBirth == form.dateOfBirth && added.rec.citizenship == []
         && added.rec.middleName == Upper(form.middleName) && added.rec.suffix == Upper(form.suffix)
         && added.rec.phone1 == Upper(form.phone1) && added.rec.phone2 == Upper(form.phone2)
         && added.rec.occupation == Upper(form.occupation)
         && added.rec.civilStatus == Upper(form.civilStatus)
         && added.rec.education == Upper(form.education) && added.rec.remarks == Upper(form.remarks)
         && added.rec.sex == Upper(form.sex)
         && added.rec.householdId
            == if HasId(db.households, index[form.household]) then Some(index[form.household]) else None
    ensures (Enforced(db) && form.household != [] && form.household in index
             && index[form.household] != 0) ==>
      (o.status == Saved <==> accepted)
    ensures Valid(db) ==> Valid(o.db)
  {
    var name := form.household;
    if name == [] then Outcome(db, Rejected(NoHouseholdSelected))
    else if name !in index || index[name] == 0 then Outcome(db, Rejected(NoMatchingHousehold(name)))
    else
      var id := index[name];
      var link := if HasId(db.households, id) then Some(id) else None;
      var rec := ResidentFromForm(UpperForm(form), link);
      var after := db.(residents := Insert(db.residents, rec, today));
      assert Valid(db) ==> Referential(after) by {
        if Valid(db) {
          forall i | 0 <= i < |after.residents|
            ensures RefersTo(after.residents[i].rec.householdId, after.households)
          {
            if i < |db.residents| {
              assert after.residents[i] == db.residents[i];
            }
          }
        }
      }
      Commit(db, after, accepted)
  }

  /** A saved resident is linked to a stored household carrying the chosen name, when the
      dictionary was built over the current listing. */
  lemma AddResidentLinksChosenHousehold(db: Db, form: ResidentForm, index: map<string, int>,
                                        today: Date, accepted: bool)
    requires Valid(db) && IndexedBy(index, ListHouseholds(db))
    requires AddResident(db, form, index, today, accepted).status == Saved
    ensures var o := AddResident(db, form, index, today, accepted);
      var added := o.db.residents[|db.residents|];
      exists h :: h in o.db.households && added.rec.householdId == Some(h.id)
        && h.rec.householdName == form.household
  {
    var o := AddResident(db, form, index, today, accepted);
    IndexPointsAtNamedHousehold(db, index, form.household);
    var h :| h in db.households && h.rec.householdName == form.household && h.id == index[form.household];
    assert HasId(db.households, h.id) by {
      var i :| 0 <= i < |db.households| && db.households[i] == h;
    }
  }

  /** The resident after `save_update` assigns the dialog's values: the four name columns
      upper-cased, the others copied as entered, citizenship untouched, the household link
      set to `householdId`. */
  function ApplyResidentUpdate(r: Resident, form: ResidentForm, householdId: int): (u: Resident)
    ensures u.citizenship == r.citizenship && u.householdId == Some(householdId)
    ensures IsUpperCase(u.firstName) && IsUpperCase(u.lastName)
    ensures IsUpperCase(u.middleName) && IsUpperCase(u.suffix)
    ensures SameIgnoringCase(u.firstName, form.firstName) && SameIgnoringCase(u.lastName, form.lastName)
    ensures SameIgnoringCase(u.middleName, form.middleName) && SameIgnoringCase(u.suffix, form.suffix)
    ensures u.dateOfBirth == form.dateOfBirth && u.email == form.email && u.role == form.role
    ensures u.phone1 == form.phone1 && u.phone2 == form.phone2 && u.occupation == form.occupation
    ensures u.civilStatus == form.civilStatus && u.education == form.education
    ensures u.remarks == form.remarks && u.sex == form.sex
  {
    r.(firstName := Upper(form.firstName), lastName := Upper(form.lastName),
       middleName := Upper(form.middleName), suffix := Upper(form.suffix),
       dateOfBirth := form.dateOfBirth, phone1 := form.phone1, phone2 := form.phone2,
       email := form.email, occupation := form.occupation, civilStatus := form.civilStatus,
       education := form.education, remarks := form.remarks, sex := form.sex, role := form.role,
       householdId := Some(householdId))
  }

  /** Only the four name columns are normalized: the update differs from copying the dialog
      verbatim in nothing else, and an update with upper-case names copies them verbatim. */
  lemma ResidentUpdateCopiesVerbatim(r: Resident, form: ResidentForm, householdId: int)
    requires IsUpperCase(form.firstName) && IsUpperCase(form.lastName)
    requires IsUpperCase(form.middleName) && IsUpperCase(form.suffix)
    ensures ApplyResidentUpdate(r, form, householdId)
         == ResidentFromForm(form, Some(householdId)).(citizenship := r.citizenship)
  {
    UpperOfUpperCase(form.firstName);
    UpperOfUpperCase(form.lastName);
    UpperOfUpperCase(form.middleName);
    UpperOfUpperCase(form.suffix);
  }

  /** `ResidentWindowController.save_update` for the resident with key `id`. The household
      chosen in the dialog must map to a non-zero id in the dictionary and be stored. */
  function UpdateResident(db: Db, id: int, form: ResidentForm, index: map<string, int>,
                          accepted: bool): (o: Outcome)
    ensures form.household !in index || index[form.household] == 0 ==>
      o == Outcome(db, Rejected(InvalidHousehold))
    ensures (form.household in index && index[form.household] != 0
             && !HasId(db.households, index[form.household])) ==>
      o == Outcome(db, Rejected(MissingHousehold))
    ensures o.status != Saved ==> o.db == db
    ensures o.status == Saved ==>
      && form.household in index
      && OnlyResidentsChanged(db, o.db)
      && |o.db.residents| == |db.residents|
      && forall i :: 0 <= i < |db.residents| ==>
           o.db.residents[i].id == db.residents[i].id
           && o.db.residents[i].dateAdded == db.residents[i].dateAdded
           && o.db.residents[i].rec
              == if db.residents[i].id == id
                 then ApplyResidentUpdate(db.residents[i].rec, form, index[form.household])
                 else db.residents[i].rec
    ensures (Enforced(db) && form.household in index && index[form.household] != 0
             && HasId(db.households, index[form.household]) && HasId(db.residents, id)) ==>
      (o.status == Saved <==> accepted)
    ensures Valid(db) ==> Valid(o.db)
  {
    var name := form.household;
    if name !in index || index[name] == 0 then Outcome(db, Rejected(InvalidHousehold))
    else if !HasId(db.households, index[name]) then Outcome(db, Rejected(MissingHousehold))
    else match Find(db.residents, id)
      case None => Outcome(db, Rejected(NotFound))
      case Some(cur) =>
        var rec := ApplyResidentUpdate(cur.rec, form, index[name]);
        var after := db.(residents := Replace(db.residents, id, rec));
        assert Valid(db) ==> Referential(after) by {
          if Valid(db) {
            forall i | 0 <= i < |after.residents|
              ensures RefersTo(after.residents[i].rec.householdId, after.households)
            {
              assert RefersTo(db.residents[i].rec.householdId, db.households);
            }
          }
        }
        Commit(db, after, accepted)
  }
}

=== FILE: display.dfy ===
/** The rows the household and resident tables show (controller.py): an address is the
    non-empty parts of house number, street, sitio and landmark joined by single spaces, and a
    full name is "LAST, FIRST MIDDLE SUFFIX" with empty given-name parts skipped. */
module Display {
  import opened Options
  import opened Text
  import opened Schema
  import opened Sequences
  import opened Search

  function AddressParts(h: Household): seq<string> {
    [h.houseNo, h.street, h.sitio, h.landmark]
  }

  /** The address cell: house number, street, sitio and landmark, empty ones skipped, joined
      by single spaces. */
  function Address(h: Household): (a: string)
    ensures a == [] <==> h.houseNo == [] && h.street == [] && h.sitio == [] && h.landmark == []
  {
    var ps := AddressParts(h);
    assert (forall k :: 0 <= k < |ps| ==> ps[k] == []) <==>
      h.houseNo == [] && h.street == [] && h.sitio == [] && h.landmark == [] by {
      assert ps[0] == h.houseNo && ps[1] == h.street && ps[2] == h.sitio && ps[3] == h.landmark;
    }
    JoinNonEmpty(ps)
  }

  /** Reading an address back: when no part contains a space, its words are exactly the
      non-empty parts, in order. */
  lemma AddressRoundTrip(h: Household)
    requires NoSpace(h.houseNo) && NoSpace(h.street) && NoSpace(h.sitio) && NoSpace(h.landmark)
    ensures Split(Address(h)) == NonEmpty(AddressParts(h))
  {
    JoinNonEmptyRoundTrip(AddressParts(h));
  }

  /** An address built from parts without surrounding spaces has none either. */
  lemma AddressShape(h: Household)
    requires forall k :: 0 <= k < 4 ==> IsTrimmed(AddressParts(h)[k])
    ensures IsTrimmed(Address(h))
  {
    JoinNonEmptyTrimmed(AddressParts(h));
  }

  /** The given names: first name, middle name and suffix, empty ones skipped, joined by
      single spaces. */
  function GivenNames(r: Resident): string {
    JoinNonEmpty([r.firstName, r.middleName, r.suffix])
  }

  /** The full-name cell: the last name, a comma, a space and the given names, with the
      surrounding whitespace of the whole removed. */
  function FullName(r: Resident): string {
    Strip(r.lastName + ", " + GivenNames(r))
  }

  lemma CommaJoinTrimmed(last: string, g: string)
    requires IsTrimmed(last) && IsTrimmed(g) && g != []
    ensures Strip(last + ", " + g) == last + ", " + g
  {
    var s := last + ", " + g;
    assert s[|s| - 1] == g[|g| - 1];
    assert s[0] == if last == [] then ',' else last[0];
    StripRemovesPadding([], s, []);
    assert [] + s + [] == s;
  }

  lemma CommaAloneTrimmed(last: string)
    requires IsTrimmed(last)
    ensures Strip(last + ", " + []) == last + ","
  {
    var s := last + ",";
    assert s[0] == if last == [] then ',' else last[0];
    StripRemovesPadding([], s, " ");
    assert [] + s + " " == last + ", " + [];
  }

  lemma GivenNamesShape(r: Resident)
    requires IsTrimmed(r.firstName) && IsTrimmed(r.middleName) && IsTrimmed(r.suffix)
    ensures IsTrimmed(GivenNames(r))
    ensures GivenNames(r) == [] <==> r.firstName == [] && r.middleName == [] && r.suffix == []
  {
    var parts := [r.firstName, r.middleName, r.suffix];
    assert parts[0] == r.firstName && parts[1] == r.middleName && parts[2] == r.suffix;
    JoinNonEmptyTrimmed(parts);
  }

  /** The full-name format: "LAST, GIVEN" when there are given names, "LAST," when there are
      none (the strip removes only the dangling space). */
  lemma FullNameFormat(r: Resident)
    requires IsTrimmed(r.lastName)
    requires IsTrimmed(r.firstName) && IsTrimmed(r.middleName) && IsTrimmed(r.suffix)
    ensures GivenNames(r) != [] ==> FullName(r) == r.lastName + ", " + GivenNames(r)
    ensures GivenNames(r) == [] ==> FullName(r) == r.lastName + ","
    ensures GivenNames(r) == [] <==> r.firstName == [] && r.middleName == [] && r.suffix == []
  {
    GivenNamesShape(r);
    var g := GivenNames(r);
    if g != [] {
      CommaJoinTrimmed(r.lastName, g);
    } else {
      CommaAloneTrimmed(r.lastName);
    }
  }

  // ----- table rows -----

  datatype HouseholdLine = HouseholdLine(id: int, householdName: string, address: string)

  datatype ResidentLine = ResidentLine(
    id: int, fullName: string, role: string, householdName: string, address: string)

  function HouseholdLineOf(h: Row<Household>): HouseholdLine {
    HouseholdLine(h.id, h.rec.householdName, Address(h.rec))
  }

  function HouseholdTable(rows: seq<Row<Household>>): (t: seq<HouseholdLine>)
    ensures |t| == |rows|
  {
    seq(|rows|, i requires 0 <= i < |rows| => HouseholdLineOf(rows[i]))
  }

  /** The table `HouseholdWindowController.search` loads. */
  function SearchHouseholdTable(db: Db, query: string): (t: seq<HouseholdLine>)
    ensures forall line :: line in t <==>
      exists h :: h in db.households && MatchesAll(HouseholdFields(h.rec), Tokens(query))
        && line == HouseholdLineOf(h)
  {
    var rows := SearchHouseholds(db, query);
    var t := HouseholdTable(rows);
    forall line | line in t
      ensures exists h :: (h in db.households && MatchesAll(HouseholdFields(h.rec), Tokens(query))
                           && line == HouseholdLineOf(h))
    {
      var i :| 0 <= i < |t| && t[i] == line;
      assert rows[i] in rows;
    }
    forall h | h in db.households && MatchesAll(HouseholdFields(h.rec), Tokens(query))
      ensures HouseholdLineOf(h) in t
    {
      var i :| 0 <= i < |rows| && rows[i] == h;
      assert t[i] == HouseholdLineOf(h);
    }
    t
  }

  /** The household listing with its address in the search's format: the listing as it is
      evidently meant to be. The program's own listing is `RefreshHouseholdTableAsWritten`. */
  function JoinedHouseholdListing(db: Db): (t: seq<HouseholdLine>)
    ensures |t| == |db.households|
  {
    HouseholdTable(ListHouseholds(db))
  }

  /** An empty query shows the same table as the listing. */
  lemma EmptyHouseholdSearchIsListing(db: Db, query: string)
    requires AllSpace(query)
    ensures SearchHouseholdTable(db, query) == JoinedHouseholdListing(db)
  {
  }

  /** The address cell the household listing builds with an f-string: the four parts with a
      space between each pair, whether or not a part is empty. */
  function RefreshAddressAsWritten(h: Household): (a: string)
    ensures |a| == |h.houseNo| + |h.street| + |h.sitio| + |h.landmark| + 3
  {
    h.houseNo + " " + h.street + " " + h.sitio + " " + h.landmark
  }

  function RefreshHouseholdTableAsWritten(db: Db): (t: seq<HouseholdLine>)
    ensures |t| == |db.households|
  {
    var rows := ListHouseholds(db);
    seq(|rows|, i requires 0 <= i < |rows| =>
      HouseholdLine(rows[i].id, rows[i].rec.householdName, RefreshAddressAsWritten(rows[i].rec)))
  }

  /** The two formats agree when every part is present. */
  lemma RefreshAddressAgreesWhenComplete(h: Household)
    requires h.houseNo != [] && h.street != [] && h.sitio != [] && h.landmark != []
    ensures RefreshAddressAsWritten(h) == Address(h)
  {
    var ps := AddressParts(h);
    assert [h.landmark][1..] == [];
    assert NonEmpty([h.landmark]) == [h.landmark];
    assert [h.sitio, h.landmark][1..] == [h.landmark];
    assert NonEmpty([h.sitio, h.landmark]) == [h.sitio, h.landmark];
    assert [h.street, h.sitio, h.landmark][1..] == [h.sitio, h.landmark];
    assert NonEmpty([h.street, h.sitio, h.landmark]) == [h.street, h.sitio, h.landmark];
    assert ps[1..] == [h.street, h.sitio, h.landmark];
    assert NonEmpty(ps) == ps;
    assert JoinWords([h.sitio, h.landmark]) == h.sitio + " " + h.landmark;
    assert JoinWords([h.street, h.sitio, h.landmark]) == h.street + " " + (h.sitio + " " + h.landmark);
  }

  /** A household with an empty part: the listing's address has more separators than the
      search's, so the two differ (a trailing space when the landmark is the empty part). */
  lemma RefreshAddressDiffers(h: Household)
    requires h.houseNo == [] || h.street == [] || h.sitio == [] || h.landmark == []
    ensures RefreshAddressAsWritten(h) != Address(h)
    ensures |Address(h)| < |RefreshAddressAsWritten(h)|
  {
    var ps := AddressParts(h);
    assert ps[1..][1..][1..][1..] == [];
    assert SumLen(ps[1..][1..][1..]) == |h.landmark|;
    assert SumLen(ps[1..][1..]) == |h.sitio| + |h.landmark|;
    assert SumLen(ps) == |h.houseNo| + |h.street| + |h.sitio| + |h.landmark|;
    assert [] in ps by {
      assert ps[0] == h.houseNo && ps[1] == h.street && ps[2] == h.sitio && ps[3] == h.landmark;
    }
    JoinNonEmptyShorter(ps);
  }

  /** The listing's address and the search's agree exactly when no part is empty. */
  lemma RefreshAddressAgreesIff(h: Household)
    ensures RefreshAddressAsWritten(h) == Address(h) <==>
      h.houseNo != [] && h.street != [] && h.sitio != [] && h.landmark != []
  {
    if h.houseNo != [] && h.street != [] && h.sitio != [] && h.landmark != [] {
      RefreshAddressAgreesWhenComplete(h);
    } else {
      RefreshAddressDiffers(h);
    }
  }

  /** A household without a landmark, the case the listing gets wrong. */
  const Rizal12 := Household("DELA CRUZ FAMILY", "12", "RIZAL", "CASARATAN", "")

  /** With that household stored, an empty search and the listing as written show different
      tables; with the search's format (`JoinedHouseholdListing`) they agree. */
  lemma RefreshTableAsWrittenDiffers()
    ensures SearchHouseholdTable(EmptyDb.(households := [Row(1, Date(2024, 1, 1), Rizal12)]), "")
         != RefreshHouseholdTableAsWritten(EmptyDb.(households := [Row(1, Date(2024, 1, 1), Rizal12)]))
  {
    var db := EmptyDb.(households := [Row(1, Date(2024, 1, 1), Rizal12)]);
    var rows := ListHouseholds(db);
    assert |rows| == 1;
    assert rows[0] in multiset(db.households);
    RefreshAddressDiffers(Rizal12);
    assert RefreshHouseholdTableAsWritten(db)[0].address != SearchHouseholdTable(db, "")[0].address;
  }

  // ----- residents -----

  /** One row of the resident table: a resident whose household is not stored shows "N/A"
      and an empty address. */
  function ResidentLineOf(db: Db, r: Row<Resident>): ResidentLine {
    match HouseholdOf(db, r.rec)
    case None => ResidentLine(r.id, FullName(r.rec), r.rec.role, "N/A", "")
    case Some(h) => ResidentLine(r.id, FullName(r.rec), r.rec.role, h.rec.householdName, Address(h.rec))
  }

  function ResidentTable(db: Db, rows: seq<Row<Resident>>): (t: seq<ResidentLine>)
    ensures |t| == |rows|
  {
    seq(|rows|, i requires 0 <= i < |rows| => ResidentLineOf(db, rows[i]))
  }

  /** The table `ResidentWindowController.refresh` loads. */
  function RefreshResidentTable(db: Db): (t: seq<ResidentLine>)
    ensures |t| == |db.residents|
  {
    ResidentTable(db, ListResidents(db))
  }

  /** The line names a household that is stored. */
  predicate NamesStoredHousehold(db: Db, line: ResidentLine) {
    exists h :: h in db.households && line.householdName == h.rec.householdName
  }

  /** The table `ResidentWindowController.search` loads: every row it shows names a stored
      household. */
  function SearchResidentTable(db: Db, query: string): (t: seq<ResidentLine>)
    ensures |t| <= |db.residents|
    ensures forall k :: 0 <= k < |t| ==> NamesStoredHousehold(db, t[k])
  {
    var rows := SearchResidents(db, query);
    HousedTableNamesStoredHouseholds(db, rows);
    ResidentTable(db, rows)
  }

  lemma HousedTableNamesStoredHouseholds(db: Db, rows: seq<Row<Resident>>)
    requires forall x :: x in rows ==> HouseholdOf(db, x.rec).Some?
    ensures forall k :: 0 <= k < |rows| ==> NamesStoredHousehold(db, ResidentTable(db, rows)[k])
  {
    var t := ResidentTable(db, rows);
    forall k | 0 <= k < |rows|
      ensures NamesStoredHousehold(db, t[k])
    {
      assert rows[k] in rows;
      var h := HouseholdOf(db, rows[k].rec).value;
      assert t[k] == ResidentLineOf(db, rows[k]);
      assert h in db.households && t[k].householdName == h.rec.householdName;
    }
  }

  lemma ListedResidents(db: Db)
    ensures forall x :: x in ListResidents(db) <==> x in db.residents
  {
    var all := ListResidents(db);
    assert forall x :: x in all <==> x in multiset(all);
    assert forall x :: x in db.residents <==> x in multiset(db.residents);
  }

  lemma AllHousedSearchIsListing(db: Db, query: string)
    requires AllSpace(query)
    requires forall i :: 0 <= i < |db.residents| ==> HouseholdOf(db, db.residents[i].rec).Some?
    ensures SearchResidents(db, query) == ListResidents(db)
  {
    var all := ListResidents(db);
    var p := ResidentFilter(db, Tokens(query));
    ListedResidents(db);
    forall k | 0 <= k < |all|
      ensures p(all[k])
    {
      assert all[k] in db.residents;
    }
    FilterKeepsAll(all, p);
  }

  lemma SearchIsListingAllHoused(db: Db, query: string)
    requires |SearchResidents(db, query)| == |db.residents|
    ensures forall i :: 0 <= i < |db.residents| ==> HouseholdOf(db, db.residents[i].rec).Some?
  {
    var all := ListResidents(db);
    var p := ResidentFilter(db, Tokens(query));
    assert SearchResidents(db, query) == Filter(all, p);
    ListedResidents(db);
    forall i | 0 <= i < |db.residents|
      ensures HouseholdOf(db, db.residents[i].rec).Some?
    {
      assert db.residents[i] in SearchResidents(db, query);
    }
  }

  /** An empty search is not the listing: it equals the listing exactly when every
      resident's household is stored. */
  lemma EmptyResidentSearchIsListingIff(db: Db, query: string)
    requires AllSpace(query)
    ensures SearchResidentTable(db, query) == RefreshResidentTable(db) <==>
      forall i :: 0 <= i < |db.residents| ==> HouseholdOf(db, db.residents[i].rec).Some?
  {
    if forall i :: 0 <= i < |db.residents| ==> HouseholdOf(db, db.residents[i].rec).Some? {
      AllHousedSearchIsListing(db, query);
    }
    if SearchResidentTable(db, query) == RefreshResidentTable(db) {
      assert |SearchResidentTable(db, query)| == |SearchResidents(db, query)|;
      SearchIsListingAllHoused(db, query);
    }
  }

  /** A resident whose household is missing is listed by the refresh, with "N/A", and never
      found by any search. */
  lemma UnhousedResidentOnlyInListing(db: Db, x: Row<Resident>, query: string)
    requires x in db.residents && HouseholdOf(db, x.rec).None?
    ensures x !in SearchResidents(db, query)
    ensures ResidentLine(x.id, FullName(x.rec), x.rec.role, "N/A", "") in RefreshResidentTable(db)
  {
    var all := ListResidents(db);
    assert x in multiset(db.residents);
    var i :| 0 <= i < |all| && all[i] == x;
    assert RefreshResidentTable(db)[i] == ResidentLineOf(db, x);
  }
}

=== FILE: fields.dfy ===
/** The field maps the add and update dialogs hand to the controllers, and the upper-casing
    the controllers apply to them before a record is built (controller.py). A map value is
    either text or a date, the two kinds of value a dialog returns. The dictionary keys, which
    are column names, are an enumeration per dialog. */
module Fields {
  import opened Options
  import opened Text
  import opened Schema

  datatype Value = Str(s: string) | Day(d: Date)

  type FieldMap<K> = map<K, Value>

  function UpperValue(v: Value): Value {
    match v
    case Str(s) => Str(Upper(s))
    case Day(_) => v
  }

  /** Every text value is in upper case. */
  predicate AllUpper<K>(m: FieldMap<K>) {
    forall k :: k in m && m[k].Str? ==> IsUpperCase(m[k].s)
  }

  /** The controllers' normalisation of a dialog's map: every text value in upper case, every
      other value as it is, the keys unchanged. */
  function UpperStrings<K>(m: FieldMap<K>): (r: FieldMap<K>)
    ensures r.Keys == m.Keys
    ensures AllUpper(r)
    ensures forall k :: k in m && m[k].Str? ==> r[k].Str? && SameIgnoringCase(r[k].s, m[k].s)
    ensures forall k :: k in m && m[k].Day? ==> r[k] == m[k]
  {
    map k | k in m :: UpperValue(m[k])
  }

  lemma UpperStringsIdempotent<K>(m: FieldMap<K>)
    ensures UpperStrings(UpperStrings(m)) == UpperStrings(m)
  {
    var r := UpperStrings(m);
    forall k | k in r
      ensures UpperValue(r[k]) == r[k]
    {
      if r[k].Str? {
        UpperOfUpperCase(r[k].s);
      }
    }
  }

  /** The maps the upper-casing leaves alone are exactly those already in upper case. */
  lemma UpperStringsFixedPoints<K>(m: FieldMap<K>)
    ensures UpperStrings(m) == m <==> AllUpper(m)
  {
    if AllUpper(m) {
      forall k | k in m
        ensures UpperValue(m[k]) == m[k]
      {
        if m[k].Str? {
          UpperOfUpperCase(m[k].s);
        }
      }
    }
  }

  // ----- the household dialog -----

  /** `AddHouseholdForm.get_fields()` / `UpdateHouseholdForm.get_fields()` for the entered
      values `h`: one text entry per household column. */
  datatype HouseholdKey = NameKey | HouseNoKey | StreetKey | SitioKey | LandmarkKey

  lemma HouseholdKeyCases(k: HouseholdKey)
    ensures k == NameKey || k == HouseNoKey || k == StreetKey || k == SitioKey || k == LandmarkKey
  {
  }

  function HouseholdFieldMap(h: Household): (m: FieldMap<HouseholdKey>)
    ensures forall k: HouseholdKey :: k in m && m[k].Str?
  {
    var m := map[NameKey := Str(h.householdName), HouseNoKey := Str(h.houseNo),
        StreetKey := Str(h.street), SitioKey := Str(h.sitio), LandmarkKey := Str(h.landmark)];
    assert forall k: HouseholdKey :: k in m && m[k].Str? by {
      forall k: HouseholdKey
        ensures k in m && m[k].Str?
      {
        HouseholdKeyCases(k);
      }
    }
    m
  }

  /** The household record built from a field map by keyword, if the map has the
      household columns as text. */
  function HouseholdFromFields(m: FieldMap<HouseholdKey>): (h: Household)
    requires forall k: HouseholdKey :: k in m && m[k].Str?
  {
    Household(m[NameKey].s, m[HouseNoKey].s, m[StreetKey].s, m[SitioKey].s, m[LandmarkKey].s)
  }

  lemma HouseholdFieldsRoundTrip(h: Household)
    ensures HouseholdFromFields(HouseholdFieldMap(h)) == h
  {
  }

  /** The household the controllers build: every column upper-cased. */
  function UpperHousehold(h: Household): (u: Household)
    ensures IsUpperCase(u.householdName) && IsUpperCase(u.houseNo) && IsUpperCase(u.street)
    ensures IsUpperCase(u.sitio) && IsUpperCase(u.landmark)
    ensures SameIgnoringCase(u.householdName, h.householdName) && SameIgnoringCase(u.landmark, h.landmark)
    ensures SameIgnoringCase(u.houseNo, h.houseNo) && SameIgnoringCase(u.street, h.street)
    ensures SameIgnoringCase(u.sitio, h.sitio)
  {
    Household(Upper(h.householdName), Upper(h.houseNo), Upper(h.street), Upper(h.sitio), Upper(h.landmark))
  }

  /** Upper-casing the typed record is the dictionary comprehension on its field map. */
  lemma UpperHouseholdIsUpperStrings(h: Household)
    ensures HouseholdFieldMap(UpperHousehold(h)) == UpperStrings(HouseholdFieldMap(h))
    ensures UpperHousehold(h) == HouseholdFromFields(UpperStrings(HouseholdFieldMap(h)))
  {
    var m := HouseholdFieldMap(h);
    assert UpperStrings(m)[NameKey] == Str(Upper(h.householdName));
    assert UpperStrings(m)[HouseNoKey] == Str(Upper(h.houseNo));
    assert UpperStrings(m)[StreetKey] == Str(Upper(h.street));
    assert UpperStrings(m)[SitioKey] == Str(Upper(h.sitio));
    assert UpperStrings(m)[LandmarkKey] == Str(Upper(h.landmark));
  }

  // ----- the resident dialog -----

  /** The values the resident dialog returns: the resident's own columns except citizenship,
      plus the name of the chosen household. */
  datatype ResidentForm = ResidentForm(
    firstName: string, lastName: string, middleName: string, suffix: string,
    dateOfBirth: Date, phone1: string, phone2: string, email: string,
    household: string,
    occupation: string, civilStatus: string, education: string, remarks: string,
    sex: string, role: string)

  datatype ResidentKey =
    | FirstNameKey | LastNameKey | MiddleNameKey | SuffixKey | DateOfBirthKey
    | Phone1Key | Phone2Key | EmailKey | ChosenHouseholdKey | OccupationKey
    | CivilStatusKey | EducationKey | RemarksKey | SexKey | RoleKey

  lemma ResidentKeyCases(k: ResidentKey)
    ensures || k == FirstNameKey || k == LastNameKey || k == MiddleNameKey || k == SuffixKey
            || k == DateOfBirthKey || k == Phone1Key || k == Phone2Key || k == EmailKey
            || k == ChosenHouseholdKey || k == OccupationKey || k == CivilStatusKey
            || k == EducationKey || k == RemarksKey || k == SexKey || k == RoleKey
  {
  }

  const ResidentKeys: set<ResidentKey> := {
    FirstNameKey, LastNameKey, MiddleNameKey, SuffixKey, DateOfBirthKey, Phone1Key, Phone2Key,
    EmailKey, ChosenHouseholdKey, OccupationKey, CivilStatusKey, EducationKey, RemarksKey,
    SexKey, RoleKey}

  /** The value the resident dialog returns under key `k`. */
  function ResidentValue(f: ResidentForm, k: ResidentKey): Value {
    match k
    case FirstNameKey => Str(f.firstName)
    case LastNameKey => Str(f.lastName)
    case MiddleNameKey => Str(f.middleName)
    case SuffixKey => Str(f.suffix)
    case DateOfBirthKey => Day(f.dateOfBirth)
    case Phone1Key => Str(f.phone1)
    case Phone2Key => Str(f.phone2)
    case EmailKey => Str(f.email)
    case ChosenHouseholdKey => Str(f.household)
    case OccupationKey => Str(f.occupation)
    case CivilStatusKey => Str(f.civilStatus)
    case EducationKey => Str(f.education)
    case RemarksKey => Str(f.remarks)
    case SexKey => Str(f.sex)
    case RoleKey => Str(f.role)
  }

  /** The resident dialog's `get_fields()`: every key present, the date as a date and the
      rest as text. */
  function ResidentFieldMap(f: ResidentForm): (m: FieldMap<ResidentKey>)
    ensures forall k: ResidentKey :: k in m && (m[k].Day? <==> k == DateOfBirthKey)
  {
    var m := map k | k in ResidentKeys :: ResidentValue(f, k);
    assert forall k: ResidentKey :: k in m && (m[k].Day? <==> k == DateOfBirthKey) by {
      forall k: ResidentKey
        ensures k in m && (m[k].Day? <==> k == DateOfBirthKey)
      {
        ResidentKeyCases(k);
      }
    }
    m
  }

  /** The form with every text value upper-cased (the date is left alone). */
  function UpperForm(f: ResidentForm): (u: ResidentForm)
    ensures u.dateOfBirth == f.dateOfBirth && u.household == Upper(f.household)
    ensures AllUpper(ResidentFieldMap(u))
  {
    ResidentForm(Upper(f.firstName), Upper(f.lastName), Upper(f.middleName), Upper(f.suffix),
      f.dateOfBirth, Upper(f.phone1), Upper(f.phone2), Upper(f.email), Upper(f.household),
      Upper(f.occupation), Upper(f.civilStatus), Upper(f.education), Upper(f.remarks),
      Upper(f.sex), Upper(f.role))
  }

  lemma UpperFormIsUpperStrings(f: ResidentForm)
    ensures ResidentFieldMap(UpperForm(f)) == UpperStrings(ResidentFieldMap(f))
  {
    var m := ResidentFieldMap(f);
    var u := UpperStrings(m);
    var v := ResidentFieldMap(UpperForm(f));
    assert u.Keys == v.Keys;
    forall k | k in u
      ensures u[k] == v[k]
    {
      assert u[k] == UpperValue(ResidentValue(f, k));
      assert v[k] == ResidentValue(UpperForm(f), k);
    }
  }

  /** The resident record built from the dialog's values by keyword, once the household entry
      is removed: citizenship is not in the
      dialog and stays NULL, and the household link is set separately. */
  function ResidentFromForm(f: ResidentForm, householdId: Option<int>): (r: Resident)
    ensures r.citizenship == [] && r.householdId == householdId
    ensures r.firstName == f.firstName && r.lastName == f.lastName && r.email == f.email
    ensures r.middleName == f.middleName && r.suffix == f.suffix && r.dateOfBirth == f.dateOfBirth
    ensures r.phone1 == f.phone1 && r.phone2 == f.phone2 && r.occupation == f.occupation
    ensures r.civilStatus == f.civilStatus && r.education == f.education
    ensures r.remarks == f.remarks && r.sex == f.sex && r.role == f.role
  {
    Resident(f.firstName, f.lastName, f.middleName, f.suffix, f.dateOfBirth, f.occupation,
      f.civilStatus, "", f.sex, f.education, f.remarks, f.phone1, f.phone2, f.email, f.role,
      householdId)
  }
}

=== FILE: legacy_schema.dfy ===
/** The earlier schema snapshot (model.py): households, residents, users and blotters only;
    no `date_added` column, no barangay or certificate table, and user accounts that are not
    linked to residents. A current store projects onto it by dropping what it lacks, and an
    earlier store embeds into the current schema with the new columns filled with their
    defaults; the two are inverse, and each keeps the constraints of its side. */
module LegacySchema {
  import opened Options
  import opened Schema

  /** A record of the earlier schema: its primary key and its own columns. */
  datatype LegacyRow<T> = LegacyRow(id: int, rec: T)

  datatype LegacyUser = LegacyUser(username: string, password: string, position: string)

  datatype LegacyDb = LegacyDb(
    households: seq<LegacyRow<Household>>,
    residents: seq<LegacyRow<Resident>>,
    users: seq<LegacyRow<LegacyUser>>,
    blotters: seq<LegacyRow<Blotter>>)

  predicate LegacyKeyed<T>(t: seq<LegacyRow<T>>) {
    && (forall i :: 0 <= i < |t| ==> t[i].id >= 1)
    && (forall i, j :: 0 <= i < j < |t| ==> t[i].id < t[j].id)
  }

  predicate LegacyHasId<T>(t: seq<LegacyRow<T>>, id: int) {
    exists i :: 0 <= i < |t| && t[i].id == id
  }

  /** Keys, UNIQUE(username), and the one foreign key, resident to household. */
  predicate LegacyValid(db: LegacyDb) {
    && LegacyKeyed(db.households) && LegacyKeyed(db.residents)
    && LegacyKeyed(db.users) && LegacyKeyed(db.blotters)
    && (forall i, j :: 0 <= i < j < |db.users| ==> db.users[i].rec.username != db.users[j].rec.username)
    && (forall i :: 0 <= i < |db.residents| && db.residents[i].rec.householdId.Some? ==>
          LegacyHasId(db.households, db.residents[i].rec.householdId.value))
  }

  /** A table without its `date_added` column. */
  function DropDates<T>(t: seq<Row<T>>): (r: seq<LegacyRow<T>>)
    ensures |r| == |t|
    ensures forall i :: 0 <= i < |t| ==> r[i].id == t[i].id && r[i].rec == t[i].rec
  {
    seq(|t|, i requires 0 <= i < |t| => LegacyRow(t[i].id, t[i].rec))
  }

  /** A table of the earlier schema given `date_added` = `today`, its column default. */
  function AddDates<T>(t: seq<LegacyRow<T>>, today: Date): (r: seq<Row<T>>)
    ensures |r| == |t|
    ensures forall i :: 0 <= i < |t| ==> r[i] == Row(t[i].id, today, t[i].rec)
  {
    seq(|t|, i requires 0 <= i < |t| => Row(t[i].id, today, t[i].rec))
  }

  function LegacyUserOf(u: User): LegacyUser {
    LegacyUser(u.username, u.password, u.position)
  }

  /** The current store as the earlier schema sees it. */
  function Project(db: Db): (l: LegacyDb)
    ensures |l.households| == |db.households| && |l.residents| == |db.residents|
    ensures |l.users| == |db.users| && |l.blotters| == |db.blotters|
    ensures forall i :: 0 <= i < |db.users| ==>
      l.users[i].id == db.users[i].id && l.users[i].rec.username == db.users[i].rec.username
  {
    var users := seq(|db.users|, i requires 0 <= i < |db.users| =>
      LegacyRow(db.users[i].id, LegacyUserOf(db.users[i].rec)));
    LegacyDb(DropDates(db.households), DropDates(db.residents), users, DropDates(db.blotters))
  }

  /** The embedding of an earlier-schema store into the current schema, the inverse of
      `Project`: every row dated `today`, no barangay and no certificate, and no account linked
      to a resident. The program has no such migration (creating the tables never alters an
      existing one, and the `date_added` default applies only on insert); this is the schema
      correspondence stated as a function. */
  function Migrate(l: LegacyDb, today: Date): (db: Db)
    ensures db.barangays == [] && db.certificates == []
    ensures |db.users| == |l.users|
    ensures forall i :: 0 <= i < |db.users| ==> db.users[i].rec.residentId == None
  {
    var users := seq(|l.users|, i requires 0 <= i < |l.users| =>
      Row(l.users[i].id, today, User(l.users[i].rec.username, l.users[i].rec.password,
        l.users[i].rec.position, None)));
    Db([], AddDates(l.households, today), AddDates(l.residents, today), users,
      AddDates(l.blotters, today), [])
  }

  /** Migrating and projecting back gives the earlier store unchanged. */
  lemma ProjectMigrate(l: LegacyDb, today: Date)
    ensures Project(Migrate(l, today)) == l
  {
    var p := Project(Migrate(l, today));
    assert p.households == l.households;
    assert p.residents == l.residents;
    assert p.users == l.users;
    assert p.blotters == l.blotters;
  }

  lemma DropDatesKeyed<T>(t: seq<Row<T>>)
    requires WellKeyed(t)
    ensures LegacyKeyed(DropDates(t))
    ensures forall id :: LegacyHasId(DropDates(t), id) <==> HasId(t, id)
  {
    var r := DropDates(t);
    forall id
      ensures LegacyHasId(r, id) <==> HasId(t, id)
    {
      if HasId(t, id) {
        var i :| 0 <= i < |t| && t[i].id == id;
        assert r[i].id == id;
      }
    }
  }

  lemma AddDatesKeyed<T>(t: seq<LegacyRow<T>>, today: Date)
    requires LegacyKeyed(t)
    ensures WellKeyed(AddDates(t, today))
    ensures forall id :: HasId(AddDates(t, today), id) <==> LegacyHasId(t, id)
  {
    var r := AddDates(t, today);
    forall id
      ensures HasId(r, id) <==> LegacyHasId(t, id)
    {
      if LegacyHasId(t, id) {
        var i :| 0 <= i < |t| && t[i].id == id;
        assert r[i].id == id;
      }
    }
  }

  /** A store valid under the current schema is valid under the earlier one. */
  lemma ProjectKeepsValid(db: Db)
    requires Valid(db)
    ensures LegacyValid(Project(db))
  {
    var l := Project(db);
    DropDatesKeyed(db.households);
    DropDatesKeyed(db.residents);
    DropDatesKeyed(db.blotters);
    forall i | 0 <= i < |l.residents| && l.residents[i].rec.householdId.Some?
      ensures LegacyHasId(l.households, l.residents[i].rec.householdId.value)
    {
      assert RefersTo(db.residents[i].rec.householdId, db.households);
    }
  }

  /** An earlier store that was valid migrates to a valid current store. */
  lemma MigrateKeepsValid(l: LegacyDb, today: Date)
    requires LegacyValid(l)
    ensures Valid(Migrate(l, today))
  {
    var db := Migrate(l, today);
    AddDatesKeyed(l.households, today);
    AddDatesKeyed(l.residents, today);
    AddDatesKeyed(l.blotters, today);
    forall i | 0 <= i < |db.residents|
      ensures RefersTo(db.residents[i].rec.householdId, db.households)
    {
      assert db.residents[i].rec == l.residents[i].rec;
    }
  }
}

=== FILE: like.dfy ===
/** SQL `LIKE` as SQLite evaluates it with no ESCAPE clause: `%` matches any run of
    characters, `_` matches exactly one, every other character matches itself. The ORM's
    `column.ilike(pattern)` is `lower(column) LIKE lower(pattern)`. */
module Like {
  import opened Text

  predicate IsWildcard(c: char) { c == '%' || c == '_' }

  predicate NoWildcards(s: string) {
    forall i :: 0 <= i < |s| ==> !IsWildcard(s[i])
  }

  /** `s LIKE p`, case-sensitively. */
  predicate Matches(p: string, s: string)
    decreases |p| + |s|
  {
    if p == [] then s == []
    else if p[0] == '%' then Matches(p[1..], s) || (s != [] && Matches(p, s[1..]))
    else s != [] && (p[0] == '_' || p[0] == s[0]) && Matches(p[1..], s[1..])
  }

  /** `column.ilike(pattern)`. */
  predicate ILike(column: string, pattern: string) {
    Matches(Lower(pattern), Lower(column))
  }

  /** The pattern `%t%` the search builds for a token `t`. */
  function Surround(t: string): (p: string)
    ensures |p| == |t| + 2 && p[0] == '%' && p[|p| - 1] == '%'
  {
    "%" + t + "%"
  }

  lemma {:induction false} PercentMatchesAll(s: string)
    ensures Matches("%", s)
    decreases |s|
  {
    if s != [] {
      PercentMatchesAll(s[1..]);
    }
  }

  /** Without wildcards, `t%` is exactly "starts with `t`". */
  lemma {:induction false} PrefixPattern(t: string, s: string)
    requires NoWildcards(t)
    ensures Matches(t + "%", s) <==> IsPrefix(t, s)
    decreases |t|
  {
    if t == [] {
      assert t + "%" == "%";
      PercentMatchesAll(s);
    } else {
      var p := t + "%";
      assert p[0] == t[0] && p[1..] == t[1..] + "%";
      if s != [] {
        PrefixPattern(t[1..], s[1..]);
        assert IsPrefix(t, s) <==> t[0] == s[0] && IsPrefix(t[1..], s[1..]) by {
          if |t| <= |s| {
            assert s[..|t|] == [s[0]] + s[1..][..|t| - 1];
            assert t == [t[0]] + t[1..];
          }
        }
      }
    }
  }

  /** Without wildcards, `%t%` is exactly "contains `t`". */
  lemma {:induction false} SurroundIsContains(t: string, s: string)
    requires NoWildcards(t)
    ensures Matches(Surround(t), s) <==> Contains(s, t)
    decreases |s|
  {
    var p := Surround(t);
    assert p[1..] == t + "%";
    PrefixPattern(t, s);
    if s != [] {
      SurroundIsContains(t, s[1..]);
    }
  }

  lemma LowerSurround(t: string)
    ensures Lower(Surround(t)) == Surround(Lower(t))
  {
    LowerConcat("%" + t, "%");
    LowerConcat("%", t);
  }

  lemma LowerKeepsNoWildcards(t: string)
    requires NoWildcards(t)
    ensures NoWildcards(Lower(t))
  {
  }

  /** The search's per-field test: a token without wildcards matches a column exactly when
      its lower-case form occurs in the column's lower-case form. */
  lemma ILikeIsSubstring(column: string, t: string)
    requires NoWildcards(t)
    ensures ILike(column, Surround(t)) <==> Contains(Lower(column), Lower(t))
  {
    LowerSurround(t);
    LowerKeepsNoWildcards(t);
    SurroundIsContains(Lower(t), Lower(column));
  }

  /** Case-insensitivity: when values are upper-cased with the same case table `lower()`
      undoes, as for ASCII text, upper-casing a stored value never changes an `ilike` test, so
      the normalisation on write is invisible to search. */
  lemma ILikeIgnoresUpper(column: string, pattern: string)
    ensures ILike(Upper(column), pattern) <==> ILike(column, pattern)
  {
    LowerOfUpper(column);
  }

  // ----- letters outside ASCII -----

  /** Python's `upper()` on one character, for ASCII and for the Latin-1 small letters from
      U+00E0 to U+00FE other than the division sign, whose capitals lie 32 code points lower.
      SQLite's `lower()` maps only the ASCII capitals back. */
  function UpperLatin1Char(c: char): char {
    var n := c as int;
    if IsLowerLetter(c) || (0xE0 <= n <= 0xFE && n != 0xF7) then (n - 32) as char else c
  }

  function UpperLatin1(s: string): (r: string)
    ensures |r| == |s|
    ensures forall i :: 0 <= i < |s| && s[i] as int < 0x80 ==> r[i] == Upper(s)[i]
  {
    seq(|s|, i requires 0 <= i < |s| => UpperLatin1Char(s[i]))
  }

  lemma {:induction false} ContainsLength(s: string, t: string)
    requires Contains(s, t)
    ensures |t| <= |s|
    decreases |s|
  {
    if !IsPrefix(t, s) {
      ContainsLength(s[1..], t);
    }
  }

  /** Text of the same length contains `t` only by being `t`. */
  lemma ContainsSameLength(s: string, t: string)
    requires |s| == |t|
    ensures Contains(s, t) <==> s == t
  {
    if !IsPrefix(t, s) && s != [] && Contains(s[1..], t) {
      ContainsLength(s[1..], t);
    }
  }

  /** A surname with an n-tilde, as the search sees it. */
  const Pena: string := "pe\U{F1}a"

  /** The program upper-cases a stored name with Python's full case table, and the search
      lowers it with SQLite's ASCII-only one: "PEÑA" is lowered to "peÑa", which the query
      "peña" no longer matches, although the name as typed would match. */
  lemma ILikeMissesUpperLatin1()
    ensures ILike(Pena, Surround(Pena))
    ensures !ILike(UpperLatin1(Pena), Surround(Pena))
  {
    var stored := UpperLatin1(Pena);
    assert NoWildcards(Pena);
    ILikeIsSubstring(Pena, Pena);
    ILikeIsSubstring(stored, Pena);
    assert IsPrefix(Lower(Pena), Lower(Pena));
    assert Lower(stored)[2] != Lower(Pena)[2];
    ContainsSameLength(Lower(stored), Lower(Pena));
  }
}

=== FILE: options.dfy ===
/** An optional value: a nullable column, a missing dictionary key, a row not found. */
module Options {

  datatype Option<+T> = None | Some(value: T)
}

=== FILE: ordering.dfy ===
/** The ORDER BY clauses of the listings. Text is compared as SQLite's default BINARY
    collation does (code point by code point, a proper prefix first), NULL sorts before every
    value, and rows that tie on the ORDER BY columns, which SQL leaves in no particular
    order, are put in primary-key order. */
module Ordering {
  import opened Options
  import opened Schema
  import opened Sequences

  predicate StrLe(a: string, b: string)
    decreases |a|
  {
    a == [] || (b != [] && (a[0] < b[0] || (a[0] == b[0] && StrLe(a[1..], b[1..]))))
  }

  lemma {:induction false} StrLeTotal(a: string, b: string)
    ensures StrLe(a, b) || StrLe(b, a)
    decreases |a|
  {
    if a != [] && b != [] && a[0] == b[0] {
      StrLeTotal(a[1..], b[1..]);
    }
  }

  lemma {:induction false} StrLeAntisymmetric(a: string, b: string)
    requires StrLe(a, b) && StrLe(b, a)
    ensures a == b
    decreases |a|
  {
    if a != [] {
      StrLeAntisymmetric(a[1..], b[1..]);
      assert a == [a[0]] + a[1..] && b == [b[0]] + b[1..];
    }
  }

  lemma {:induction false} StrLeTransitive(a: string, b: string, c: string)
    requires StrLe(a, b) && StrLe(b, c)
    ensures StrLe(a, c)
    decreases |a|
  {
    if a != [] && a[0] == b[0] && b[0] == c[0] {
      StrLeTransitive(a[1..], b[1..], c[1..]);
    }
  }

  /** The ORDER BY columns of a row: a text column and, for residents, a nullable id. */
  datatype SortKey = SortKey(text: string, group: Option<int>)

  /** NULL first, then ascending. */
  predicate GroupLt(a: Option<int>, b: Option<int>) {
    (a.None? && b.Some?) || (a.Some? && b.Some? && a.value < b.value)
  }

  /** `(k1, id1)` comes no later than `(k2, id2)`. */
  predicate KeyLe(k1: SortKey, id1: int, k2: SortKey, id2: int) {
    if k1.text != k2.text then StrLe(k1.text, k2.text)
    else if k1.group != k2.group then GroupLt(k1.group, k2.group)
    else id1 <= id2
  }

  lemma KeyLeTotal(k1: SortKey, id1: int, k2: SortKey, id2: int)
    ensures KeyLe(k1, id1, k2, id2) || KeyLe(k2, id2, k1, id1)
  {
    StrLeTotal(k1.text, k2.text);
  }

  lemma KeyLeTransitive(k1: SortKey, id1: int, k2: SortKey, id2: int, k3: SortKey, id3: int)
    requires KeyLe(k1, id1, k2, id2) && KeyLe(k2, id2, k3, id3)
    ensures KeyLe(k1, id1, k3, id3)
  {
    if k1.text != k2.text && k2.text != k3.text {
      StrLeTransitive(k1.text, k2.text, k3.text);
      if k1.text == k3.text {
        StrLeAntisymmetric(k1.text, k2.text);
      }
    }
  }

  lemma KeyLeAntisymmetric(k1: SortKey, id1: int, k2: SortKey, id2: int)
    requires KeyLe(k1, id1, k2, id2) && KeyLe(k2, id2, k1, id1)
    ensures k1 == k2 && id1 == id2
  {
    if k1.text != k2.text {
      StrLeAntisymmetric(k1.text, k2.text);
    }
  }

  predicate RowLe<T>(a: Row<T>, b: Row<T>, key: T -> SortKey) {
    KeyLe(key(a.rec), a.id, key(b.rec), b.id)
  }

  predicate Sorted<T>(s: seq<Row<T>>, key: T -> SortKey) {
    forall i, j :: 0 <= i < j < |s| ==> RowLe(s[i], s[j], key)
  }

  function InsertInOrder<T(==,!new)>(x: Row<T>, s: seq<Row<T>>, key: T -> SortKey): (r: seq<Row<T>>)
    requires Sorted(s, key)
    ensures Sorted(r, key)
    ensures multiset(r) == multiset(s) + multiset{x}
    decreases |s|
  {
    if s == [] then [x]
    else if RowLe(x, s[0], key) then
      var r := [x] + s;
      assert Sorted(r, key) by {
        forall j | 1 <= j < |r|
          ensures RowLe(x, r[j], key)
        {
          if j > 1 {
            KeyLeTransitive(key(x.rec), x.id, key(s[0].rec), s[0].id, key(r[j].rec), r[j].id);
          }
        }
      }
      r
    else
      var rest := InsertInOrder(x, s[1..], key);
      var r := [s[0]] + rest;
      assert s == [s[0]] + s[1..];
      KeyLeTotal(key(x.rec), x.id, key(s[0].rec), s[0].id);
      assert Sorted(r, key) by {
        forall j | 1 <= j < |r|
          ensures RowLe(s[0], r[j], key)
        {
          assert r[j] in multiset(rest);
          assert r[j] == x || r[j] in multiset(s[1..]);
          if r[j] != x {
            var k :| 1 <= k < |s| && s[k] == r[j];
          }
        }
      }
      r
  }

  /** The rows of `s` in ORDER BY order (an insertion sort). */
  function Sort<T(==,!new)>(s: seq<Row<T>>, key: T -> SortKey): (r: seq<Row<T>>)
    ensures Sorted(r, key)
    ensures multiset(r) == multiset(s)
    decreases |s|
  {
    if s == [] then []
    else
      assert s == [s[0]] + s[1..];
      InsertInOrder(s[0], Sort(s[1..], key), key)
  }

  /** Filtering a sorted listing keeps it sorted. */
  lemma {:induction false} FilterKeepsSorted<T(!new)>(s: seq<Row<T>>, key: T -> SortKey, p: Row<T> -> bool)
    requires Sorted(s, key)
    ensures Sorted(Filter(s, p), key)
    decreases |s|
  {
    if s != [] {
      FilterKeepsSorted(s[1..], key, p);
      var rest := Filter(s[1..], p);
      if p(s[0]) {
        var r := [s[0]] + rest;
        forall j | 1 <= j < |r|
          ensures RowLe(s[0], r[j], key)
        {
          assert r[j] in rest;
          var k :| 0 <= k < |s[1..]| && s[1..][k] == r[j];
          assert s[k + 1] == r[j];
        }
      }
    }
  }

  /** No two different rows of `a` share a primary key. */
  predicate IdsDetermineRows<T(==)>(a: seq<Row<T>>) {
    forall x, y :: x in a && y in a && x.id == y.id ==> x == y
  }

  lemma WellKeyedDeterminesRows<T>(a: seq<Row<T>>)
    requires WellKeyed(a)
    ensures IdsDetermineRows(a)
  {
    forall x, y | x in a && y in a && x.id == y.id
      ensures x == y
    {
      var i :| 0 <= i < |a| && a[i] == x;
      var j :| 0 <= j < |a| && a[j] == y;
      assert i == j;
    }
  }

  lemma SortedHeadsAgree<T(!new)>(a: seq<Row<T>>, b: seq<Row<T>>, key: T -> SortKey)
    requires Sorted(a, key) && Sorted(b, key)
    requires a != [] && multiset(a) == multiset(b)
    requires IdsDetermineRows(a)
    ensures b != [] && a[0] == b[0]
  {
    assert a[0] in multiset(b);
    assert b != [];
    assert b[0] in multiset(a);
    var i :| 0 <= i < |b| && b[i] == a[0];
    var j :| 0 <= j < |a| && a[j] == b[0];
    assert RowLe(a[0], a[j], key) by {
      if j == 0 {
        KeyLeTotal(key(a[0].rec), a[0].id, key(a[0].rec), a[0].id);
      }
    }
    assert RowLe(b[0], b[i], key) by {
      if i == 0 {
        KeyLeTotal(key(b[0].rec), b[0].id, key(b[0].rec), b[0].id);
      }
    }
    KeyLeAntisymmetric(key(a[0].rec), a[0].id, key(b[0].rec), b[0].id);
    assert a[j] in a && a[0] in a;
  }

  lemma SameTails<T>(a: seq<T>, b: seq<T>)
    requires a != [] && b != [] && a[0] == b[0] && multiset(a) == multiset(b)
    ensures multiset(a[1..]) == multiset(b[1..])
  {
    assert a == [a[0]] + a[1..] && b == [b[0]] + b[1..];
    assert multiset(a[1..]) == multiset(a) - multiset{a[0]};
    assert multiset(b[1..]) == multiset(b) - multiset{b[0]};
  }

  lemma SortedTail<T>(a: seq<Row<T>>, key: T -> SortKey)
    requires a != [] && Sorted(a, key)
    ensures Sorted(a[1..], key)
  {
    forall i, j | 0 <= i < j < |a[1..]|
      ensures RowLe(a[1..][i], a[1..][j], key)
    {
      assert a[1..][i] == a[i + 1] && a[1..][j] == a[j + 1];
    }
  }

  /** Two sorted listings of the same rows with distinct keys are the same listing: the
      ORDER BY with its tie-break fixes the order completely. */
  lemma {:induction false} SortedUnique<T(!new)>(a: seq<Row<T>>, b: seq<Row<T>>, key: T -> SortKey)
    requires Sorted(a, key) && Sorted(b, key)
    requires multiset(a) == multiset(b)
    requires IdsDetermineRows(a)
    ensures a == b
    decreases |a|
  {
    if a == [] {
      assert |b| == |multiset(b)| == 0;
    } else {
      SortedHeadsAgree(a, b, key);
      SameTails(a, b);
      SortedTail(a, key);
      SortedTail(b, key);
      assert forall x :: x in a[1..] ==> x in a;
      SortedUnique(a[1..], b[1..], key);
      assert a == [a[0]] + a[1..] && b == [b[0]] + b[1..];
    }
  }
}

=== FILE: schema.dfy ===
/** The record kinds of app/model.py and the store that holds them.

    Every table is a sequence of rows in rowid order, which is how SQLite stores and scans a
    table with an INTEGER PRIMARY KEY. `Row` is the shared base of every record: the integer
    primary key `id` and the `date_added` column that defaults to the insert date. A NULL
    text column is represented by the empty string; a nullable foreign key by an `Option`. */
module Schema {
  import opened Options
  import opened Sequences

  datatype Date = Date(year: int, month: int, day: int)

  /** A stored record: its primary key, its insert date and its own columns. */
  datatype Row<T> = Row(id: int, dateAdded: Date, rec: T)

  datatype Barangay = Barangay(name: string, history: string, mission: string, vision: string)

  datatype Household = Household(
    householdName: string, houseNo: string, street: string, sitio: string, landmark: string)

  datatype Resident = Resident(
    firstName: string, lastName: string, middleName: string, suffix: string,
    dateOfBirth: Date, occupation: string, civilStatus: string, citizenship: string,
    sex: string, education: string, remarks: string, phone1: string, phone2: string,
    email: string, role: string,
    householdId: Option<int>)

  datatype User = User(username: string, password: string, position: string, residentId: Option<int>)

  /** Complainant and respondent are free text, not references to residents. */
  datatype Blotter = Blotter(
    recordDate: Date, status: string, actionTaken: string, natureOfDispute: string,
    complainant: string, respondent: string, fullReport: string)

  datatype Certificate = Certificate(dateIssued: Date, kind: string, purpose: string, residentId: Option<int>)

  datatype Db = Db(
    barangays: seq<Row<Barangay>>,
    households: seq<Row<Household>>,
    residents: seq<Row<Resident>>,
    users: seq<Row<User>>,
    blotters: seq<Row<Blotter>>,
    certificates: seq<Row<Certificate>>)

  const EmptyDb := Db([], [], [], [], [], [])

  // ----- tables -----

  /** Primary keys are positive and strictly increase along the table. */
  predicate WellKeyed<T>(t: seq<Row<T>>) {
    && (forall i :: 0 <= i < |t| ==> t[i].id >= 1)
    && (forall i, j :: 0 <= i < j < |t| ==> t[i].id < t[j].id)
  }

  predicate HasId<T>(t: seq<Row<T>>, id: int) {
    exists i :: 0 <= i < |t| && t[i].id == id
  }

  /** Lookup by primary key: the row with key `id`, if any. */
  function Find<T>(t: seq<Row<T>>, id: int): (r: Option<Row<T>>)
    ensures r.Some? ==> r.value in t && r.value.id == id
    ensures r.None? <==> !HasId(t, id)
    decreases |t|
  {
    if t == [] then None
    else if t[0].id == id then Some(t[0])
    else
      var r := Find(t[1..], id);
      assert HasId(t, id) <==> HasId(t[1..], id) by {
        if HasId(t, id) {
          var i :| 0 <= i < |t| && t[i].id == id;
          assert t[1..][i - 1].id == id;
        }
        if HasId(t[1..], id) {
          var i :| 0 <= i < |t[1..]| && t[1..][i].id == id;
          assert t[i + 1].id == id;
        }
      }
      r
  }

  /** The largest primary key in the table, 0 when it is empty. */
  function MaxId<T>(t: seq<Row<T>>): (m: int)
    ensures forall i :: 0 <= i < |t| ==> t[i].id <= m
    ensures t == [] ==> m == 0
    ensures t != [] ==> exists i :: 0 <= i < |t| && t[i].id == m
    decreases |t|
  {
    if t == [] then 0
    else
      var m := MaxId(t[..|t| - 1]);
      var last := t[|t| - 1].id;
      if |t| == 1 || last > m then last else m
  }

  /** The rowid SQLite gives an inserted row: one more than the largest, 1 in an empty table. */
  function NextId<T>(t: seq<Row<T>>): (id: int)
    ensures !HasId(t, id)
    ensures forall i :: 0 <= i < |t| ==> t[i].id < id
    ensures WellKeyed(t) ==> id >= 1
  {
    if t == [] then 1 else MaxId(t) + 1
  }

  /** `session.add(rec)`: the row is stored under the next rowid and dated `today`. */
  function Insert<T>(t: seq<Row<T>>, rec: T, today: Date): (r: seq<Row<T>>)
    ensures |r| == |t| + 1 && r[..|t|] == t
    ensures r[|t|] == Row(NextId(t), today, rec)
    ensures forall k :: HasId(r, k) <==> HasId(t, k) || k == NextId(t)
    ensures WellKeyed(t) ==> WellKeyed(r)
  {
    var r := t + [Row(NextId(t), today, rec)];
    assert forall k :: HasId(r, k) <==> HasId(t, k) || k == NextId(t) by {
      forall k
        ensures HasId(r, k) <==> HasId(t, k) || k == NextId(t)
      {
        if HasId(t, k) {
          var i :| 0 <= i < |t| && t[i].id == k;
          assert r[i].id == k;
        }
        if HasId(r, k) {
          var i :| 0 <= i < |r| && r[i].id == k;
          if i < |t| {
            assert t[i].id == k;
          }
        }
        if k == NextId(t) {
          assert r[|t|].id == k;
        }
      }
    }
    r
  }

  /** Assigning new column values to the row with primary key `id`; key and insert date stay. */
  function Replace<T>(t: seq<Row<T>>, id: int, rec: T): (r: seq<Row<T>>)
    ensures |r| == |t|
    ensures forall i :: 0 <= i < |t| ==> r[i].id == t[i].id && r[i].dateAdded == t[i].dateAdded
    ensures forall i :: 0 <= i < |t| ==> r[i].rec == (if t[i].id == id then rec else t[i].rec)
    ensures forall k :: HasId(r, k) <==> HasId(t, k)
    ensures WellKeyed(t) ==> WellKeyed(r)
  {
    var r := seq(|t|, i requires 0 <= i < |t| => if t[i].id == id then t[i].(rec := rec) else t[i]);
    assert forall k :: HasId(r, k) <==> HasId(t, k) by {
      forall k
        ensures HasId(r, k) <==> HasId(t, k)
      {
        if HasId(r, k) {
          var i :| 0 <= i < |r| && r[i].id == k;
          assert t[i].id == k;
        }
        if HasId(t, k) {
          var i :| 0 <= i < |t| && t[i].id == k;
          assert r[i].id == k;
        }
      }
    }
    r
  }

  // ----- constraints -----

  /** UNIQUE(username) on users. */
  predicate UniqueUsernames(users: seq<Row<User>>) {
    forall i, j :: 0 <= i < j < |users| ==> users[i].rec.username != users[j].rec.username
  }

  /** UNIQUE(resident_id) on users: a resident has at most one account (NULLs are distinct). */
  predicate UniqueUserResidents(users: seq<Row<User>>) {
    forall i, j :: 0 <= i < j < |users| && users[i].rec.residentId.Some? ==>
      users[i].rec.residentId != users[j].rec.residentId
  }

  /** What the database itself rejects at commit: duplicate keys and the two UNIQUE columns. */
  predicate Enforced(db: Db) {
    && WellKeyed(db.barangays) && WellKeyed(db.households) && WellKeyed(db.residents)
    && WellKeyed(db.users) && WellKeyed(db.blotters) && WellKeyed(db.certificates)
    && UniqueUsernames(db.users)
    && UniqueUserResidents(db.users)
  }

  predicate RefersTo<T>(fk: Option<int>, t: seq<Row<T>>) {
    fk.Some? ==> HasId(t, fk.value)
  }

  /** The declared foreign keys: resident to household, user and certificate to resident.
      SQLite does not check them unless told to, so the operations have to keep them. */
  predicate Referential(db: Db) {
    && (forall i :: 0 <= i < |db.residents| ==> RefersTo(db.residents[i].rec.householdId, db.households))
    && (forall i :: 0 <= i < |db.users| ==> RefersTo(db.users[i].rec.residentId, db.residents))
    && (forall i :: 0 <= i < |db.certificates| ==> RefersTo(db.certificates[i].rec.residentId, db.residents))
  }

  predicate Valid(db: Db) {
    Enforced(db) && Referential(db)
  }

  /** The relationship `Household.residents`, inverse of `Resident.household_id`: the
      residents in table order. */
  function ResidentsOf(db: Db, householdId: int): (r: seq<Row<Resident>>)
    ensures forall x :: x in r <==> x in db.residents && x.rec.householdId == Some(householdId)
    ensures IsSubsequence(r, db.residents)
  {
    Filter(db.residents, (x: Row<Resident>) => x.rec.householdId == Some(householdId))
  }

  /** The relationship `Resident.user`, inverse of `User.resident_id`: the first account that
      points at the resident (`AtMostOneUser` shows there is no other). */
  function UserOf(db: Db, residentId: int): (r: Option<Row<User>>)
    ensures r.Some? ==> r.value in db.users && r.value.rec.residentId == Some(residentId)
    ensures r.None? ==> forall i :: 0 <= i < |db.users| ==> db.users[i].rec.residentId != Some(residentId)
  {
    FirstUserOf(db.users, residentId)
  }

  function FirstUserOf(t: seq<Row<User>>, residentId: int): (r: Option<Row<User>>)
    ensures r.Some? ==> r.value in t && r.value.rec.residentId == Some(residentId)
    ensures r.None? ==> forall i :: 0 <= i < |t| ==> t[i].rec.residentId != Some(residentId)
    decreases |t|
  {
    if t == [] then None
    else if t[0].rec.residentId == Some(residentId) then Some(t[0])
    else
      var r := FirstUserOf(t[1..], residentId);
      assert r.None? ==> forall i :: 1 <= i < |t| ==> t[1..][i - 1] == t[i];
      r
  }

  /** The relationship `Resident.certificates`, inverse of `Certificate.resident_id`: the
      certificates in table order. */
  function CertificatesOf(db: Db, residentId: int): (r: seq<Row<Certificate>>)
    ensures forall x :: x in r <==> x in db.certificates && x.rec.residentId == Some(residentId)
    ensures IsSubsequence(r, db.certificates)
  {
    Filter(db.certificates, (x: Row<Certificate>) => x.rec.residentId == Some(residentId))
  }

  /** Since `resident_id` is unique, `Resident.user` holds at most one account, so the one
      `UserOf` finds is the only one that points at the resident. */
  lemma {:induction false} AtMostOneUser(db: Db, residentId: int)
    requires Enforced(db)
    ensures forall i, j ::
      (0 <= i < |db.users| && 0 <= j < |db.users|
       && db.users[i].rec.residentId == Some(residentId)
       && db.users[j].rec.residentId == Some(residentId)) ==> i == j
  {
  }

  /** In a valid store every resident listed under a household really exists and every
      household a resident points to is stored: the two sides of the relationship agree. */
  lemma HouseholdRelationshipInverse(db: Db, r: Row<Resident>)
    requires Referential(db)
    requires r in db.residents && r.rec.householdId.Some?
    ensures HasId(db.households, r.rec.householdId.value)
    ensures r in ResidentsOf(db, r.rec.householdId.value)
  {
  }

  /** In a store whose foreign keys hold, a certificate's resident is stored and the
      certificate is among that resident's certificates. */
  lemma CertificateRelationshipInverse(db: Db, c: Row<Certificate>)
    requires Referential(db)
    requires c in db.certificates && c.rec.residentId.Some?
    ensures HasId(db.residents, c.rec.residentId.value)
    ensures c in CertificatesOf(db, c.rec.residentId.value)
  {
    var i :| 0 <= i < |db.certificates| && db.certificates[i] == c;
    assert RefersTo(db.certificates[i].rec.residentId, db.residents);
  }
}

=== FILE: search.dfy ===
/** The search of the household and resident windows (controller.py): the query is
    lower-cased and split on whitespace into tokens, and a row survives when EVERY token
    matches `%token%` case-insensitively in AT LEAST ONE searchable column (an AND of ORs).
    No tokens means no WHERE clause. Results come back in the listing's ORDER BY order. */
module Search {
  import opened Options
  import opened Text
  import opened Like
  import opened Schema
  import opened Sequences
  import opened Ordering

  /** The search terms: the query in lower case, cut into its whitespace-separated words. */
  function Tokens(query: string): (ts: seq<string>)
    ensures forall k :: 0 <= k < |ts| ==> IsWord(ts[k]) && IsLowerCase(ts[k])
    ensures ts == [] <==> AllSpace(query)
  {
    LowerKeepsSpaces(query);
    SplitEmptyIffBlank(Lower(query));
    SplitKeepsLowerCase(Lower(query));
    Split(Lower(query))
  }

  /** A query typed as words separated by single spaces has exactly those words, lower-cased,
      as its tokens. */
  lemma TokensOfWords(ws: seq<string>)
    requires forall k :: 0 <= k < |ws| ==> IsWord(ws[k])
    ensures Tokens(JoinWords(ws)) == seq(|ws|, i requires 0 <= i < |ws| => Lower(ws[i]))
  {
    var ls := seq(|ws|, i requires 0 <= i < |ws| => Lower(ws[i]));
    LowerJoinWords(ws);
    forall k | 0 <= k < |ls|
      ensures IsWord(ls[k])
    {
      LowerKeepsSpaces(ws[k]);
    }
    SplitJoinWords(ls);
  }

  /** The case of the query does not matter. */
  lemma TokensIgnoreCase(query: string)
    ensures Tokens(Upper(query)) == Tokens(query)
  {
    LowerOfUpper(query);
  }

  /** Typing a second group of words after a space adds its tokens after the first group's. */
  lemma TokensConcat(a: string, b: string)
    ensures Tokens(a + " " + b) == Tokens(a) + Tokens(b)
  {
    LowerConcat(a + " ", b);
    LowerConcat(a, " ");
    assert Lower(" ") == [' '];
    SplitConcat(Lower(a), ' ', Lower(b));
  }

  /** The OR for one token: some column matches `%token%`. */
  predicate TokenHits(fields: seq<string>, token: string) {
    exists k :: 0 <= k < |fields| && ILike(fields[k], Surround(token))
  }

  /** The AND over all tokens. */
  predicate MatchesAll(fields: seq<string>, tokens: seq<string>) {
    forall t :: t in tokens ==> TokenHits(fields, t)
  }

  /** For tokens without `%` or `_`, the AND of ORs is: every token occurs, ignoring case,
      inside one of the columns. */
  lemma MatchesAllIsSubstring(fields: seq<string>, tokens: seq<string>)
    requires forall k :: 0 <= k < |tokens| ==> NoWildcards(tokens[k])
    ensures MatchesAll(fields, tokens) <==>
      forall t :: t in tokens ==>
        exists k :: 0 <= k < |fields| && Contains(Lower(fields[k]), Lower(t))
  {
    forall t, k | t in tokens && 0 <= k < |fields|
      ensures ILike(fields[k], Surround(t)) <==> Contains(Lower(fields[k]), Lower(t))
    {
      ILikeIsSubstring(fields[k], t);
    }
  }

  /** More tokens can only narrow the match. */
  lemma MatchesAllMonotone(fields: seq<string>, fewer: seq<string>, more: seq<string>)
    requires forall t :: t in fewer ==> t in more
    requires MatchesAll(fields, more)
    ensures MatchesAll(fields, fewer)
  {
  }

  /** Upper-casing the stored columns never changes whether a row matches. */
  lemma MatchesAllIgnoresUpper(fields: seq<string>, tokens: seq<string>)
    ensures MatchesAll(seq(|fields|, i requires 0 <= i < |fields| => Upper(fields[i])), tokens)
        <==> MatchesAll(fields, tokens)
  {
    var up := seq(|fields|, i requires 0 <= i < |fields| => Upper(fields[i]));
    forall t, k | t in tokens && 0 <= k < |fields|
      ensures ILike(up[k], Surround(t)) <==> ILike(fields[k], Surround(t))
    {
      ILikeIgnoresUpper(fields[k], Surround(t));
    }
  }

  // ----- households -----

  /** household_name, house_no, street, sitio, landmark. */
  function HouseholdFields(h: Household): seq<string> {
    [h.householdName, h.houseNo, h.street, h.sitio, h.landmark]
  }

  /** The household listing's sort key: the household name. */
  function HouseholdKey(h: Household): SortKey {
    SortKey(h.householdName, None)
  }

  /** Every stored household, ordered by household name. */
  function ListHouseholds(db: Db): (r: seq<Row<Household>>)
    ensures Sorted(r, HouseholdKey)
    ensures multiset(r) == multiset(db.households)
    ensures |r| == |db.households|
  {
    assert |multiset(db.households)| == |db.households|;
    Sort(db.households, HouseholdKey)
  }

  /** With distinct keys there is exactly one listing in that order. */
  lemma ListHouseholdsIsCanonical(db: Db, s: seq<Row<Household>>)
    requires WellKeyed(db.households)
    requires Sorted(s, HouseholdKey) && multiset(s) == multiset(db.households)
    ensures s == ListHouseholds(db)
  {
    WellKeyedDeterminesRows(db.households);
    assert forall x :: x in s <==> x in db.households by {
      assert forall x :: x in s <==> x in multiset(s);
      assert forall x :: x in db.households <==> x in multiset(db.households);
    }
    SortedUnique(s, ListHouseholds(db), HouseholdKey);
  }

  function HouseholdFilter(tokens: seq<string>): Row<Household> -> bool {
    (h: Row<Household>) => MatchesAll(HouseholdFields(h.rec), tokens)
  }

  /** `HouseholdWindowController.search`: the households that match, in listing order. */
  function SearchHouseholds(db: Db, query: string): (r: seq<Row<Household>>)
    ensures forall h :: h in r <==>
      h in db.households && MatchesAll(HouseholdFields(h.rec), Tokens(query))
    ensures Sorted(r, HouseholdKey)
    ensures IsSubsequence(r, ListHouseholds(db))
    ensures AllSpace(query) ==> r == ListHouseholds(db)
  {
    var all := ListHouseholds(db);
    var p := HouseholdFilter(Tokens(query));
    FilterKeepsSorted(all, HouseholdKey, p);
    FilterKeepsAll(all, p);
    assert forall h :: h in all <==> h in db.households by {
      assert forall h :: h in all <==> h in multiset(all);
    }
    Filter(all, p)
  }

  /** Adding words to a query narrows the result: what `a b` finds, `a` finds too, in the
      same relative order. */
  lemma SearchHouseholdsNarrows(db: Db, a: string, b: string)
    ensures IsSubsequence(SearchHouseholds(db, a + " " + b), SearchHouseholds(db, a))
  {
    TokensConcat(a, b);
    FilterNarrows(ListHouseholds(db), HouseholdFilter(Tokens(a)), HouseholdFilter(Tokens(a + " " + b)));
  }

  /** Filtering the sorted listing is the same as sorting the filtered table: WHERE and ORDER
      BY can be applied in either order. */
  lemma SearchHouseholdsIsWhereThenOrder(db: Db, query: string)
    requires WellKeyed(db.households)
    ensures SearchHouseholds(db, query)
         == Sort(Filter(db.households, HouseholdFilter(Tokens(query))), HouseholdKey)
  {
    var p := HouseholdFilter(Tokens(query));
    var a := SearchHouseholds(db, query);
    var b := Sort(Filter(db.households, p), HouseholdKey);
    FilterSameMultiset(ListHouseholds(db), db.households, p);
    WellKeyedDeterminesRows(db.households);
    SortedUnique(a, b, HouseholdKey);
  }

  // ----- residents -----

  /** first_name, middle_name, last_name, suffix, role, and the joined household's five. */
  function ResidentFields(r: Resident, h: Household): seq<string> {
    [r.firstName, r.middleName, r.lastName, r.suffix, r.role] + HouseholdFields(h)
  }

  /** The resident listing's sort key: last name, then household key. */
  function ResidentKey(r: Resident): SortKey {
    SortKey(r.lastName, r.householdId)
  }

  /** `resident.household`: the row `household_id` points at, if it is stored. */
  function HouseholdOf(db: Db, r: Resident): (h: Option<Row<Household>>)
    ensures h.Some? ==> h.value in db.households && r.householdId == Some(h.value.id)
    ensures h.None? <==> r.householdId.None? || !HasId(db.households, r.householdId.value)
  {
    if r.householdId.None? then None else Find(db.households, r.householdId.value)
  }

  /** Every stored resident, ordered by last name and then household key. */
  function ListResidents(db: Db): (r: seq<Row<Resident>>)
    ensures Sorted(r, ResidentKey)
    ensures multiset(r) == multiset(db.residents)
    ensures |r| == |db.residents|
  {
    assert |multiset(db.residents)| == |db.residents|;
    Sort(db.residents, ResidentKey)
  }

  /** A resident row survives the inner join with households and the WHERE clause. */
  predicate ResidentHit(db: Db, r: Row<Resident>, tokens: seq<string>) {
    match HouseholdOf(db, r.rec)
    case None => false
    case Some(h) => MatchesAll(ResidentFields(r.rec, h.rec), tokens)
  }

  function ResidentFilter(db: Db, tokens: seq<string>): Row<Resident> -> bool {
    (r: Row<Resident>) => ResidentHit(db, r, tokens)
  }

  /** `ResidentWindowController.search`: the residents whose household is stored and who
      match on their own or their household's columns, in listing order. */
  function SearchResidents(db: Db, query: string): (r: seq<Row<Resident>>)
    ensures forall x :: x in r <==> x in db.residents && ResidentHit(db, x, Tokens(query))
    ensures forall x :: x in r ==> HouseholdOf(db, x.rec).Some?
    ensures Sorted(r, ResidentKey)
    ensures IsSubsequence(r, ListResidents(db))
  {
    var all := ListResidents(db);
    var p := ResidentFilter(db, Tokens(query));
    FilterKeepsSorted(all, ResidentKey, p);
    assert forall x :: x in all <==> x in db.residents by {
      assert forall x :: x in all <==> x in multiset(all);
    }
    Filter(all, p)
  }

  /** The join spelled out: a resident is found exactly when a stored household carries the
      resident's `household_id` and every token matches one of the ten columns. */
  lemma ResidentHitMeaning(db: Db, r: Row<Resident>, tokens: seq<string>)
    requires WellKeyed(db.households)
    ensures ResidentHit(db, r, tokens) <==>
      exists h :: h in db.households && r.rec.householdId == Some(h.id)
        && MatchesAll(ResidentFields(r.rec, h.rec), tokens)
  {
    WellKeyedDeterminesRows(db.households);
    if h :| (h in db.households && r.rec.householdId == Some(h.id)
             && MatchesAll(ResidentFields(r.rec, h.rec), tokens)) {
      assert HasId(db.households, h.id) by {
        var i :| 0 <= i < |db.households| && db.households[i] == h;
      }
    }
  }

  /** With no tokens the search still drops every resident whose household is missing. */
  lemma EmptyResidentSearch(db: Db, query: string)
    requires AllSpace(query)
    ensures forall x :: x in SearchResidents(db, query) <==>
      x in db.residents && HouseholdOf(db, x.rec).Some?
  {
  }

  /** Only the ten searched columns decide a match: two residents that agree on them and on
      their household are found or missed together, whatever their other columns hold. */
  lemma ResidentHitIgnoresOtherColumns(db: Db, r1: Row<Resident>, r2: Row<Resident>, tokens: seq<string>)
    requires r1.rec.firstName == r2.rec.firstName && r1.rec.middleName == r2.rec.middleName
    requires r1.rec.lastName == r2.rec.lastName && r1.rec.suffix == r2.rec.suffix
    requires r1.rec.role == r2.rec.role && r1.rec.householdId == r2.rec.householdId
    ensures ResidentHit(db, r1, tokens) <==> ResidentHit(db, r2, tokens)
  {
  }

  lemma SearchResidentsNarrows(db: Db, a: string, b: string)
    ensures IsSubsequence(SearchResidents(db, a + " " + b), SearchResidents(db, a))
  {
    TokensConcat(a, b);
    FilterNarrows(ListResidents(db), ResidentFilter(db, Tokens(a)), ResidentFilter(db, Tokens(a + " " + b)));
  }

  lemma SearchResidentsIsWhereThenOrder(db: Db, query: string)
    requires WellKeyed(db.residents)
    ensures SearchResidents(db, query)
         == Sort(Filter(db.residents, ResidentFilter(db, Tokens(query))), ResidentKey)
  {
    var p := ResidentFilter(db, Tokens(query));
    var a := SearchResidents(db, query);
    var b := Sort(Filter(db.residents, p), ResidentKey);
    FilterSameMultiset(ListResidents(db), db.residents, p);
    WellKeyedDeterminesRows(db.residents);
    SortedUnique(a, b, ResidentKey);
  }
}

=== FILE: sequences.dfy ===
/** Filtering a sequence and the subsequence relation it produces: a query's WHERE clause
    keeps some rows of an ordered listing and drops the rest without reordering. */
module Sequences {

  /** `a` can be obtained from `b` by deleting elements. */
  predicate IsSubsequence<T(==,!new)>(a: seq<T>, b: seq<T>)
    decreases |b|
  {
    a == [] || (b != [] && ((a[0] == b[0] && IsSubsequence(a[1..], b[1..])) || IsSubsequence(a, b[1..])))
  }

  /** The elements of `s` that satisfy `p`, in their original order. */
  function Filter<T(==,!new)>(s: seq<T>, p: T -> bool): (r: seq<T>)
    ensures |r| <= |s|
    ensures forall x :: x in r <==> x in s && p(x)
    ensures IsSubsequence(r, s)
    ensures |r| == |s| ==> r == s
    decreases |s|
  {
    if s == [] then []
    else
      var rest := Filter(s[1..], p);
      assert forall x :: x in s <==> x == s[0] || x in s[1..];
      if p(s[0]) then [s[0]] + rest else rest
  }

  /** Nothing is dropped exactly when every element passes. */
  lemma {:induction false} FilterKeepsAll<T(!new)>(s: seq<T>, p: T -> bool)
    ensures Filter(s, p) == s <==> forall k :: 0 <= k < |s| ==> p(s[k])
    decreases |s|
  {
    if s != [] {
      FilterKeepsAll(s[1..], p);
      assert forall k :: 1 <= k < |s| ==> s[k] == s[1..][k - 1];
      if !p(s[0]) {
        assert |Filter(s, p)| < |s| by {
          assert |Filter(s[1..], p)| <= |s[1..]|;
        }
      }
    }
  }

  lemma SubsequencePrepend<T(!new)>(a: seq<T>, c: T, b: seq<T>)
    requires IsSubsequence(a, b)
    ensures IsSubsequence(a, [c] + b)
  {
    assert ([c] + b)[1..] == b;
  }

  /** A stronger filter keeps a subsequence of what a weaker one keeps. */
  lemma {:induction false} FilterNarrows<T(!new)>(s: seq<T>, p: T -> bool, q: T -> bool)
    requires forall x :: q(x) ==> p(x)
    ensures IsSubsequence(Filter(s, q), Filter(s, p))
    decreases |s|
  {
    if s != [] {
      FilterNarrows(s[1..], p, q);
      var a := Filter(s[1..], q);
      var b := Filter(s[1..], p);
      if q(s[0]) {
        assert Filter(s, q) == [s[0]] + a && Filter(s, p) == [s[0]] + b;
        assert ([s[0]] + a)[1..] == a && ([s[0]] + b)[1..] == b;
      } else if p(s[0]) {
        SubsequencePrepend(a, s[0], b);
      }
    }
  }

  /** Filtering twice is filtering once with both conditions. */
  lemma {:induction false} FilterFilter<T(!new)>(s: seq<T>, p: T -> bool, q: T -> bool)
    ensures Filter(Filter(s, p), q) == Filter(s, x => p(x) && q(x))
    decreases |s|
  {
    if s != [] {
      FilterFilter(s[1..], p, q);
      if p(s[0]) {
        assert ([s[0]] + Filter(s[1..], p))[1..] == Filter(s[1..], p);
      }
    }
  }

  /** How often a value survives a filter depends only on how often it occurs. */
  lemma {:induction false} FilterCount<T(!new)>(s: seq<T>, p: T -> bool, x: T)
    ensures multiset(Filter(s, p))[x] == if p(x) then multiset(s)[x] else 0
    decreases |s|
  {
    if s != [] {
      FilterCount(s[1..], p, x);
      assert s == [s[0]] + s[1..];
    }
  }

  /** Filtering commutes with reordering: permutations filter to permutations. */
  lemma FilterSameMultiset<T(!new)>(s1: seq<T>, s2: seq<T>, p: T -> bool)
    requires multiset(s1) == multiset(s2)
    ensures multiset(Filter(s1, p)) == multiset(Filter(s2, p))
  {
    forall x
      ensures multiset(Filter(s1, p))[x] == multiset(Filter(s2, p))[x]
    {
      FilterCount(s1, p, x);
      FilterCount(s2, p, x);
    }
  }
}

=== FILE: session.dfy ===
/** The unit of work around every write: the controllers stage changes, `commit()` either
    stores them all or raises, and on an exception they `rollback()`, leaving the store as it
    was. What makes SQLite refuse a commit is a violated PRIMARY KEY or UNIQUE constraint; any
    other failure (a locked or unwritable file) is outside the model and arrives as
    `accepted == false`. */
module Session {
  import opened Schema

  /** Why an operation wrote nothing. */
  datatype Failure =
    | NoHouseholdSelected            // "Please select a Household."
    | NoMatchingHousehold(name: string) // "No matching Household found for '<name>'."
    | InvalidHousehold               // "Please select a valid household."
    | MissingHousehold               // "Selected household does not exist."
    | NotFound                       // the row being edited is not stored
    | CommitFailed                   // commit raised; the session was rolled back

  datatype Status = Saved | Rejected(failure: Failure)

  datatype Outcome = Outcome(db: Db, status: Status)

  /** `session.commit()` with `session.rollback()` in the exception handler. */
  function Commit(before: Db, after: Db, accepted: bool): (o: Outcome)
    ensures o.status == Saved <==> accepted && Enforced(after)
    ensures o.status == Saved ==> o.db == after
    ensures o.status != Saved ==> o == Outcome(before, Rejected(CommitFailed))
  {
    if accepted && Enforced(after) then Outcome(after, Saved)
    else Outcome(before, Rejected(CommitFailed))
  }

  /** Whatever happens, a commit never leaves a state the database would refuse, as long as
      it started from one it accepts. */
  lemma CommitKeepsEnforced(before: Db, after: Db, accepted: bool)
    requires Enforced(before)
    ensures Enforced(Commit(before, after, accepted).db)
  {
  }
}

=== FILE: text.dfy ===
/** The string operations the controllers and the setup wizard apply to user input:
    Python's `upper()`, `lower()`, `strip()`, `split()` and `" ".join(filter(None, parts))`,
    plus plain substring containment. Case mapping covers the ASCII letters only. */
module Text {

  /** Whitespace as Python's `str.isspace()` (and hence `strip()` and `split()`) sees it. */
  predicate IsSpace(c: char) {
    var n := c as int;
    || 9 <= n <= 13 || 28 <= n <= 32
    || n == 0x85 || n == 0xA0 || n == 0x1680
    || 0x2000 <= n <= 0x200A
    || n == 0x2028 || n == 0x2029 || n == 0x202F || n == 0x205F || n == 0x3000
  }

  predicate AllSpace(s: string) {
    forall i :: 0 <= i < |s| ==> IsSpace(s[i])
  }

  predicate NoSpace(s: string) {
    forall i :: 0 <= i < |s| ==> !IsSpace(s[i])
  }

  /** A token `split()` can produce: non-empty and free of whitespace. */
  predicate IsWord(s: string) {
    s != [] && NoSpace(s)
  }

  predicate IsLowerLetter(c: char) { 'a' <= c <= 'z' }

  predicate IsUpperLetter(c: char) { 'A' <= c <= 'Z' }

  function UpperChar(c: char): char {
    if IsLowerLetter(c) then (c as int - 32) as char else c
  }

  function LowerChar(c: char): char {
    if IsUpperLetter(c) then (c as int + 32) as char else c
  }

  /** No letter of `s` is lower-case. */
  predicate IsUpperCase(s: string) {
    forall i :: 0 <= i < |s| ==> !IsLowerLetter(s[i])
  }

  /** No letter of `s` is upper-case. */
  predicate IsLowerCase(s: string) {
    forall i :: 0 <= i < |s| ==> !IsUpperLetter(s[i])
  }

  /** `a` and `b` have the same length and differ at most in the case of letters. */
  predicate SameIgnoringCase(a: string, b: string) {
    |a| == |b| && forall i :: 0 <= i < |a| ==> LowerChar(a[i]) == LowerChar(b[i])
  }

  /** Python's `s.upper()` on ASCII text. */
  function Upper(s: string): (r: string)
    ensures IsUpperCase(r)
    ensures SameIgnoringCase(r, s)
    ensures forall i :: 0 <= i < |s| && !IsLowerLetter(s[i]) ==> r[i] == s[i]
  {
    seq(|s|, i requires 0 <= i < |s| => UpperChar(s[i]))
  }

  /** Python's `s.lower()` on ASCII text, and SQL's `lower()`. */
  function Lower(s: string): (r: string)
    ensures IsLowerCase(r)
    ensures SameIgnoringCase(r, s)
    ensures forall i :: 0 <= i < |s| && !IsUpperLetter(s[i]) ==> r[i] == s[i]
  {
    seq(|s|, i requires 0 <= i < |s| => LowerChar(s[i]))
  }

  lemma UpperIdempotent(s: string)
    ensures Upper(Upper(s)) == Upper(s)
  {
  }

  /** Upper-case text is its own upper-case form: normalising twice changes nothing. */
  lemma UpperOfUpperCase(s: string)
    requires IsUpperCase(s)
    ensures Upper(s) == s
  {
  }

  /** `Upper`'s contract determines it: the only upper-case text equal to `s` ignoring case
      is `Upper(s)`. */
  lemma UpperIsDetermined(s: string, r: string)
    requires IsUpperCase(r) && SameIgnoringCase(r, s)
    ensures r == Upper(s)
  {
    var u := Upper(s);
    forall i | 0 <= i < |s|
      ensures r[i] == u[i]
    {
      assert LowerChar(r[i]) == LowerChar(s[i]) && LowerChar(u[i]) == LowerChar(s[i]);
      assert !IsLowerLetter(r[i]) && !IsLowerLetter(u[i]);
    }
  }

  lemma LowerIdempotent(s: string)
    ensures Lower(Lower(s)) == Lower(s)
  {
  }

  /** Upper-casing loses nothing a case-insensitive comparison can see. */
  lemma LowerOfUpper(s: string)
    ensures Lower(Upper(s)) == Lower(s)
  {
  }

  lemma UpperConcat(a: string, b: string)
    ensures Upper(a + b) == Upper(a) + Upper(b)
  {
  }

  lemma LowerConcat(a: string, b: string)
    ensures Lower(a + b) == Lower(a) + Lower(b)
  {
  }

  /** Case mapping never turns whitespace into non-whitespace or back. */
  lemma LowerKeepsSpaces(s: string)
    ensures forall i :: 0 <= i < |s| ==> (IsSpace(Lower(s)[i]) <==> IsSpace(s[i]))
    ensures AllSpace(Lower(s)) <==> AllSpace(s)
  {
  }

  lemma UpperKeepsSpaces(s: string)
    ensures forall i :: 0 <= i < |s| ==> (IsSpace(Upper(s)[i]) <==> IsSpace(s[i]))
  {
  }

  lemma UpperKeepsTrimmed(s: string)
    requires IsTrimmed(s)
    ensures IsTrimmed(Upper(s))
  {
    UpperKeepsSpaces(s);
  }

  // ----- strip() -----

  function TrimStart(s: string): (r: string)
    ensures |r| <= |s| && r == s[|s| - |r|..]
    ensures AllSpace(s[..|s| - |r|])
    ensures r == [] || !IsSpace(r[0])
    decreases |s|
  {
    if s != [] && IsSpace(s[0]) then
      var r := TrimStart(s[1..]);
      assert s[..|s| - |r|] == [s[0]] + s[1..][..|s| - 1 - |r|];
      r
    else s
  }

  function TrimEnd(s: string): (r: string)
    ensures |r| <= |s| && r == s[..|r|]
    ensures AllSpace(s[|r|..])
    ensures r == [] || !IsSpace(r[|r| - 1])
    decreases |s|
  {
    if s != [] && IsSpace(s[|s| - 1]) then
      var r := TrimEnd(s[..|s| - 1]);
      assert s[|r|..] == s[..|s| - 1][|r|..] + [s[|s| - 1]];
      r
    else s
  }

  /** Python's `s.strip()`: `s` without its leading and trailing whitespace. */
  function Strip(s: string): (r: string)
    ensures r == [] || (!IsSpace(r[0]) && !IsSpace(r[|r| - 1]))
    ensures r == [] <==> AllSpace(s)
    ensures |r| <= |s|
  {
    var t := TrimStart(s);
    var r := TrimEnd(t);
    assert r == [] ==> AllSpace(s) by {
      if r == [] {
        assert s == s[..|s| - |t|] + t;
      }
    }
    assert AllSpace(s) ==> t == [];
    r
  }

  /** Text with no surrounding whitespace is a fixed point of `strip()`. */
  predicate IsTrimmed(s: string) {
    s == [] || (!IsSpace(s[0]) && !IsSpace(s[|s| - 1]))
  }

  lemma {:induction false} TrimStartSkipsPadding(p: string, s: string)
    requires AllSpace(p)
    requires s == [] || !IsSpace(s[0])
    ensures TrimStart(p + s) == s
    decreases |p|
  {
    if p == [] {
      assert p + s == s;
    } else {
      assert (p + s)[1..] == p[1..] + s;
      TrimStartSkipsPadding(p[1..], s);
    }
  }

  lemma {:induction false} TrimEndSkipsPadding(s: string, q: string)
    requires AllSpace(q)
    requires s == [] || !IsSpace(s[|s| - 1])
    ensures TrimEnd(s + q) == s
    decreases |q|
  {
    if q == [] {
      assert s + q == s;
    } else {
      assert (s + q)[..|s + q| - 1] == s + q[..|q| - 1];
      TrimEndSkipsPadding(s, q[..|q| - 1]);
    }
  }

  /** `strip()` removes exactly the whitespace padding around trimmed text: together with
      `Strip`'s own contract this determines its result on every input. */
  lemma StripRemovesPadding(p: string, s: string, q: string)
    requires AllSpace(p) && AllSpace(q) && IsTrimmed(s)
    ensures Strip(p + s + q) == s
  {
    if s == [] {
      assert AllSpace(p + s + q);
    } else {
      assert p + s + q == p + (s + q);
      TrimStartSkipsPadding(p, s + q);
      TrimEndSkipsPadding(s, q);
    }
  }

  lemma StripIdempotent(s: string)
    ensures Strip(Strip(s)) == Strip(s)
  {
    var r := Strip(s);
    assert r == [] + r + [];
    StripRemovesPadding([], r, []);
  }

  lemma {:induction false} UpperTrimStart(s: string)
    ensures Upper(TrimStart(s)) == TrimStart(Upper(s))
    decreases |s|
  {
    UpperKeepsSpaces(s);
    if s != [] && IsSpace(s[0]) {
      assert Upper(s)[1..] == Upper(s[1..]);
      UpperTrimStart(s[1..]);
    }
  }

  lemma {:induction false} UpperTrimEnd(s: string)
    ensures Upper(TrimEnd(s)) == TrimEnd(Upper(s))
    decreases |s|
  {
    UpperKeepsSpaces(s);
    if s != [] && IsSpace(s[|s| - 1]) {
      assert Upper(s)[..|s| - 1] == Upper(s[..|s| - 1]);
      UpperTrimEnd(s[..|s| - 1]);
    }
  }

  /** Upper-casing and stripping commute, so `strip().upper()` is also `upper().strip()`. */
  lemma UpperStripCommute(s: string)
    ensures Upper(Strip(s)) == Strip(Upper(s))
  {
    UpperTrimStart(s);
    UpperTrimEnd(TrimStart(s));
  }

  // ----- split() -----

  /** The longest whitespace-free prefix of `s`. */
  function Word(s: string): (w: string)
    ensures |w| <= |s| && w == s[..|w|]
    ensures NoSpace(w)
    ensures |w| < |s| ==> IsSpace(s[|w|])
    decreases |s|
  {
    if s == [] || IsSpace(s[0]) then [] else [s[0]] + Word(s[1..])
  }

  /** Python's `s.split()` with no separator: the maximal whitespace-free runs of `s`. */
  function Split(s: string): (ts: seq<string>)
    ensures forall k :: 0 <= k < |ts| ==> IsWord(ts[k])
    decreases |s|
  {
    if s == [] then []
    else if IsSpace(s[0]) then Split(s[1..])
    else
      var w := Word(s);
      [w] + Split(s[|w|..])
  }

  /** Splitting lower-case text gives lower-case words. */
  lemma {:induction false} SplitKeepsLowerCase(s: string)
    requires IsLowerCase(s)
    ensures forall k :: 0 <= k < |Split(s)| ==> IsLowerCase(Split(s)[k])
    decreases |s|
  {
    if s != [] {
      if IsSpace(s[0]) {
        SplitKeepsLowerCase(s[1..]);
      } else {
        var w := Word(s);
        SplitKeepsLowerCase(s[|w|..]);
        assert Split(s) == [w] + Split(s[|w|..]);
      }
    }
  }

  /** `split()` finds no token exactly when the text is blank, which is also exactly when
      `strip()` leaves nothing. */
  lemma {:induction false} SplitEmptyIffBlank(s: string)
    ensures Split(s) == [] <==> AllSpace(s)
    ensures Split(s) == [] <==> Strip(s) == []
    decreases |s|
  {
    if s != [] {
      if IsSpace(s[0]) {
        SplitEmptyIffBlank(s[1..]);
        assert AllSpace(s) <==> AllSpace(s[1..]);
      } else {
        assert !AllSpace(s);
      }
    }
  }

  lemma {:induction false} WordStopsAtSpace(a: string, c: char, b: string)
    requires IsSpace(c)
    ensures Word(a + [c] + b) == Word(a)
    decreases |a|
  {
    if a == [] {
      assert (a + [c] + b)[0] == c;
    } else if !IsSpace(a[0]) {
      assert (a + [c] + b)[1..] == a[1..] + [c] + b;
      WordStopsAtSpace(a[1..], c, b);
    }
  }

  /** Splitting text with a whitespace character in the middle splits the two halves
      separately: adding words to a query only appends tokens. */
  lemma {:induction false} SplitConcat(a: string, c: char, b: string)
    requires IsSpace(c)
    ensures Split(a + [c] + b) == Split(a) + Split(b)
    decreases |a|
  {
    var s := a + [c] + b;
    if a == [] {
      assert s[1..] == b;
    } else if IsSpace(a[0]) {
      assert s[1..] == a[1..] + [c] + b;
      SplitConcat(a[1..], c, b);
    } else {
      WordStopsAtSpace(a, c, b);
      var w := Word(a);
      assert s[|w|..] == a[|w|..] + [c] + b;
      SplitConcat(a[|w|..], c, b);
    }
  }

  // ----- " ".join(...) -----

  /** `" ".join(ws)`. */
  function JoinWords(ws: seq<string>): (r: string)
    ensures ws == [] ==> r == []
    decreases |ws|
  {
    if ws == [] then []
    else if |ws| == 1 then ws[0]
    else ws[0] + " " + JoinWords(ws[1..])
  }

  /** Lower-casing words joined by single spaces lower-cases each word. */
  lemma {:induction false} LowerJoinWords(ws: seq<string>)
    ensures Lower(JoinWords(ws)) == JoinWords(seq(|ws|, i requires 0 <= i < |ws| => Lower(ws[i])))
    decreases |ws|
  {
    var ls := seq(|ws|, i requires 0 <= i < |ws| => Lower(ws[i]));
    if |ws| > 1 {
      LowerJoinWords(ws[1..]);
      assert ls[1..] == seq(|ws| - 1, i requires 0 <= i < |ws| - 1 => Lower(ws[1..][i]));
      LowerConcat(ws[0] + " ", JoinWords(ws[1..]));
      LowerConcat(ws[0], " ");
      assert Lower(" ") == " ";
    }
  }

  /** `filter(None, parts)` on strings: the non-empty parts, in order. */
  function NonEmpty(parts: seq<string>): (r: seq<string>)
    ensures |r| <= |parts|
    ensures forall k :: 0 <= k < |r| ==> r[k] != []
    ensures forall x :: x in r <==> x in parts && x != []
    decreases |parts|
  {
    if parts == [] then []
    else if parts[0] == [] then NonEmpty(parts[1..])
    else [parts[0]] + NonEmpty(parts[1..])
  }

  /** `" ".join(filter(None, parts))`: the non-empty parts separated by single spaces. */
  function JoinNonEmpty(parts: seq<string>): (r: string)
    ensures r == [] <==> forall k :: 0 <= k < |parts| ==> parts[k] == []
  {
    var ws := NonEmpty(parts);
    assert ws == [] <==> forall k :: 0 <= k < |parts| ==> parts[k] == [] by {
      if ws != [] {
        assert ws[0] in parts;
      } else {
        forall k | 0 <= k < |parts|
          ensures parts[k] == []
        {
          assert parts[k] in parts;
        }
      }
    }
    assert ws != [] ==> JoinWords(ws) != [] by {
      if ws != [] {
        assert |JoinWords(ws)| >= |ws[0]|;
      }
    }
    JoinWords(ws)
  }

  /** The total length of the pieces. */
  function SumLen(ws: seq<string>): nat
    decreases |ws|
  {
    if ws == [] then 0 else |ws[0]| + SumLen(ws[1..])
  }

  /** Joining n pieces adds n - 1 separators. */
  lemma {:induction false} JoinWordsLength(ws: seq<string>)
    requires ws != []
    ensures |JoinWords(ws)| == SumLen(ws) + |ws| - 1
    decreases |ws|
  {
    if |ws| > 1 {
      JoinWordsLength(ws[1..]);
    }
  }

  /** Dropping empty pieces keeps the total length, and drops at least one piece when there is
      an empty one. */
  lemma {:induction false} NonEmptyLength(parts: seq<string>)
    ensures SumLen(NonEmpty(parts)) == SumLen(parts)
    ensures [] in parts ==> |NonEmpty(parts)| < |parts|
    decreases |parts|
  {
    if parts != [] {
      NonEmptyLength(parts[1..]);
      if parts[0] != [] {
        assert NonEmpty(parts) == [parts[0]] + NonEmpty(parts[1..]);
        assert ([parts[0]] + NonEmpty(parts[1..]))[1..] == NonEmpty(parts[1..]);
        assert [] in parts ==> [] in parts[1..];
      }
    }
  }

  /** `" ".join(filter(None, parts))` with an empty part among two or more is shorter than
      the parts with a separator between every pair. */
  lemma JoinNonEmptyShorter(parts: seq<string>)
    requires |parts| >= 2 && [] in parts
    ensures |JoinNonEmpty(parts)| < SumLen(parts) + |parts| - 1
  {
    var ws := NonEmpty(parts);
    NonEmptyLength(parts);
    if ws != [] {
      JoinWordsLength(ws);
    }
  }

  lemma {:induction false} SplitWord(w: string)
    requires IsWord(w)
    ensures Split(w) == [w]
  {
    assert w == w + [] by { }
    WordIsWhole(w);
    assert w[|w|..] == [];
  }

  lemma {:induction false} WordIsWhole(w: string)
    requires NoSpace(w)
    ensures Word(w) == w
    decreases |w|
  {
    if w != [] {
      WordIsWhole(w[1..]);
      assert w == [w[0]] + w[1..];
    }
  }

  /** Round trip: splitting words joined by single spaces gives the words back. */
  lemma {:induction false} SplitJoinWords(ws: seq<string>)
    requires forall k :: 0 <= k < |ws| ==> IsWord(ws[k])
    ensures Split(JoinWords(ws)) == ws
    decreases |ws|
  {
    if ws == [] {
    } else if |ws| == 1 {
      SplitWord(ws[0]);
    } else {
      SplitJoinWords(ws[1..]);
      SplitConcat(ws[0], ' ', JoinWords(ws[1..]));
      SplitWord(ws[0]);
      assert ws[0] + " " + JoinWords(ws[1..]) == ws[0] + [' '] + JoinWords(ws[1..]);
      assert ws == [ws[0]] + ws[1..];
    }
  }

  /** Round trip for the address and name formats: when no part contains whitespace,
      `split()` of the joined text recovers exactly the non-empty parts. */
  lemma JoinNonEmptyRoundTrip(parts: seq<string>)
    requires forall k :: 0 <= k < |parts| ==> NoSpace(parts[k])
    ensures Split(JoinNonEmpty(parts)) == NonEmpty(parts)
  {
    var ws := NonEmpty(parts);
    forall k | 0 <= k < |ws|
      ensures IsWord(ws[k])
    {
      assert ws[k] in parts;
    }
    SplitJoinWords(ws);
  }

  /** Non-empty pieces without surrounding whitespace, joined by single spaces, have none
      either. */
  lemma {:induction false} JoinWordsTrimmed(ws: seq<string>)
    requires forall k :: 0 <= k < |ws| ==> ws[k] != [] && IsTrimmed(ws[k])
    ensures IsTrimmed(JoinWords(ws))
    ensures ws != [] ==> JoinWords(ws) != []
    decreases |ws|
  {
    if |ws| > 1 {
      JoinWordsTrimmed(ws[1..]);
      var rest := JoinWords(ws[1..]);
      var r := ws[0] + " " + rest;
      assert r[0] == ws[0][0];
      assert r[|r| - 1] == rest[|rest| - 1];
    }
  }

  /** `" ".join(filter(None, parts))` has no surrounding whitespace when no part has any. */
  lemma JoinNonEmptyTrimmed(parts: seq<string>)
    requires forall k :: 0 <= k < |parts| ==> IsTrimmed(parts[k])
    ensures IsTrimmed(JoinNonEmpty(parts))
  {
    var ws := NonEmpty(parts);
    forall k | 0 <= k < |ws|
      ensures ws[k] != [] && IsTrimmed(ws[k])
    {
      assert ws[k] in parts;
    }
    JoinWordsTrimmed(ws);
  }

  // ----- substrings -----

  predicate IsPrefix(t: string, s: string) {
    |t| <= |s| && s[..|t|] == t
  }

  /** `t` occurs in `s` as a contiguous substring (Python's `t in s`). */
  predicate Contains(s: string, t: string)
    decreases |s|
  {
    IsPrefix(t, s) || (s != [] && Contains(s[1..], t))
  }
}

=== FILE: wizard.dfy ===
/** The first-run setup wizard (wizard.py): four pages whose `validatePage` refuses blank
    required entries, and an `accept` that stores one barangay, one household, one resident
    living in it and one user account for that resident, all in a single commit. Every text
    entry is stripped and upper-cased except the e-mail address, the username and the
    password, which are only stripped. */
module Wizard {
  import opened Options
  import opened Text
  import opened Schema
  import opened Session

  datatype BarangayPage = BarangayPage(name: string, history: string, mission: string, vision: string)

  datatype HouseholdPage = HouseholdPage(
    householdName: string, houseNo: string, street: string, sitio: string, landmark: string)

  datatype ResidentPage = ResidentPage(
    firstName: string, lastName: string, middleName: string, suffix: string, birthDate: Date,
    phone1: string, phone2: string, email: string, occupation: string, civilStatus: string,
    citizenship: string, sex: string, education: string, remarks: string, role: string)

  datatype UserPage = UserPage(username: string, password: string, confirmPassword: string, position: string)

  /** What `validatePage` decides: go on, or stay with a warning. */
  datatype Check = Pass | Warn(message: string)

  // ----- page validation -----

  /** The validators' emptiness test: nothing but whitespace was entered. */
  predicate Blank(s: string) {
    Strip(s) == []
  }

  lemma BlankIsAllSpace(s: string)
    ensures Blank(s) <==> AllSpace(s)
  {
  }

  /** `BarangayPage.validatePage`. */
  function ValidateBarangay(p: BarangayPage): (c: Check)
    ensures c == Pass <==> !AllSpace(p.name)
    ensures c != Pass ==> c == Warn("Barangay name cannot be empty.")
  {
    if Blank(p.name) then Warn("Barangay name cannot be empty.") else Pass
  }

  /** `HouseholdPage.validatePage`. */
  function ValidateHousehold(p: HouseholdPage): (c: Check)
    ensures c == Pass <==> !AllSpace(p.householdName)
    ensures c != Pass ==> c == Warn("Household name cannot be empty.")
  {
    if Blank(p.householdName) then Warn("Household name cannot be empty.") else Pass
  }

  /** `ResidentPage.validatePage`: the names are checked before the citizenship. */
  function ValidateResident(p: ResidentPage): (c: Check)
    ensures c == Pass <==> !AllSpace(p.firstName) && !AllSpace(p.lastName) && !AllSpace(p.citizenship)
    ensures AllSpace(p.firstName) || AllSpace(p.lastName) ==>
      c == Warn("First and last name cannot be empty.")
    ensures !AllSpace(p.firstName) && !AllSpace(p.lastName) && AllSpace(p.citizenship) ==>
      c == Warn("Citizenship cannot be empty.")
  {
    if Blank(p.firstName) || Blank(p.lastName) then Warn("First and last name cannot be empty.")
    else if Blank(p.citizenship) then Warn("Citizenship cannot be empty.")
    else Pass
  }

  /** `UserPage.validatePage`: blank entries are reported before a mismatch, and the two
      passwords are compared after stripping. */
  function ValidateUser(p: UserPage): (c: Check)
    ensures c == Pass <==>
      !AllSpace(p.username) && !AllSpace(p.password) && Strip(p.password) == Strip(p.confirmPassword)
    ensures AllSpace(p.username) || AllSpace(p.password) ==>
      c == Warn("Username and password cannot be empty.")
    ensures !AllSpace(p.username) && !AllSpace(p.password) && Strip(p.password) != Strip(p.confirmPassword) ==>
      c == Warn("Passwords do not match.")
  {
    if Blank(p.username) || Blank(p.password) then Warn("Username and password cannot be empty.")
    else if Strip(p.password) != Strip(p.confirmPassword) then Warn("Passwords do not match.")
    else Pass
  }

  // ----- the choice lists -----

  const Sitios: seq<string> := ["CASARATAN", "CABAOANGAN", "TRAMO"]
  const CivilStatuses: seq<string> := ["SINGLE", "MARRIED", "DIVORCED", "SEPARATED", "WIDOWED"]
  const Sexes: seq<string> := ["MALE", "FEMALE", "OTHER"]
  const EducationLevels: seq<string> := [
    "SOME ELEMENTARY", "ELEMENTARY GRADUATE", "SOME HIGH SCHOOL", "HIGH SCHOOL GRADUATE",
    "SOME COLLEGE/VOCATIONAL", "COLLEGE GRADUATE", "SOME/COMPLETED MASTER'S DEGREE",
    "MASTERS GRADUATE", "VOCATIONAL/TVET"]
  const Roles: seq<string> := ["Head", "Spouse", "Child"]
  const Positions: seq<string> := ["CAPTAIN", "SECRETARY", "TREASURER", "KAGAWAD", "TANOD"]

  /** The combo boxes are not editable: each holds one of its items. */
  predicate ChosenFromLists(h: HouseholdPage, r: ResidentPage, u: UserPage) {
    h.sitio in Sitios && r.civilStatus in CivilStatuses && r.sex in Sexes
    && r.education in EducationLevels && r.role in Roles && u.position in Positions
  }

  // ----- accept -----

  /** What `accept` makes of a text entry: the entry without its surrounding whitespace, in
      upper case. */
  function Normalize(s: string): (r: string)
    ensures IsUpperCase(r) && IsTrimmed(r)
    ensures SameIgnoringCase(r, Strip(s))
    ensures r == [] <==> AllSpace(s)
  {
    var t := Strip(s);
    UpperKeepsTrimmed(t);
    assert |Upper(t)| == |t|;
    Upper(t)
  }

  /** `Normalize`'s contract determines it: the only upper-case text equal to the stripped
      entry ignoring case is the normalized entry. */
  lemma NormalizeIsDetermined(s: string, r: string)
    requires IsUpperCase(r) && SameIgnoringCase(r, Strip(s))
    ensures r == Normalize(s)
  {
    UpperIsDetermined(Strip(s), r);
  }

  /** Normalizing twice is normalizing once. */
  lemma NormalizeIdempotent(s: string)
    ensures Normalize(Normalize(s)) == Normalize(s)
  {
    NormalizeFixesNormalForm(Normalize(s));
  }

  /** A value already stripped and in upper case is stored as it is. */
  lemma NormalizeFixesNormalForm(s: string)
    requires IsTrimmed(s) && IsUpperCase(s)
    ensures Normalize(s) == s
  {
    StripRemovesPadding([], s, []);
    assert [] + s + [] == s;
    UpperOfUpperCase(s);
  }

  /** The barangay as `accept` stores it: every column normalized. */
  function NewBarangay(p: BarangayPage): (r: Barangay)
    ensures r.name == Normalize(p.name) && r.history == Normalize(p.history)
    ensures r.mission == Normalize(p.mission) && r.vision == Normalize(p.vision)
  {
    Barangay(Normalize(p.name), Normalize(p.history), Normalize(p.mission), Normalize(p.vision))
  }

  /** The household as `accept` stores it: every column normalized. */
  function NewHousehold(p: HouseholdPage): (r: Household)
    ensures r.householdName == Normalize(p.householdName) && r.houseNo == Normalize(p.houseNo)
    ensures r.street == Normalize(p.street) && r.sitio == Normalize(p.sitio)
    ensures r.landmark == Normalize(p.landmark)
  {
    Household(Normalize(p.householdName), Normalize(p.houseNo), Normalize(p.street),
      Normalize(p.sitio), Normalize(p.landmark))
  }

  /** The resident, living in the household with key `householdId`: every text column
      normalized except the e-mail, which keeps its case. */
  function NewResident(p: ResidentPage, householdId: int): (r: Resident)
    ensures r.firstName == Normalize(p.firstName) && r.lastName == Normalize(p.lastName)
    ensures r.middleName == Normalize(p.middleName) && r.suffix == Normalize(p.suffix)
    ensures r.dateOfBirth == p.birthDate && r.occupation == Normalize(p.occupation)
    ensures r.civilStatus == Normalize(p.civilStatus) && r.citizenship == Normalize(p.citizenship)
    ensures r.sex == Normalize(p.sex) && r.education == Normalize(p.education)
    ensures r.remarks == Normalize(p.remarks)
    ensures r.phone1 == Normalize(p.phone1) && r.phone2 == Normalize(p.phone2)
    ensures r.email == Strip(p.email) && r.role == Normalize(p.role)
    ensures r.householdId == Some(householdId)
  {
    Resident(Normalize(p.firstName), Normalize(p.lastName), Normalize(p.middleName),
      Normalize(p.suffix), p.birthDate, Normalize(p.occupation), Normalize(p.civilStatus),
      Normalize(p.citizenship), Normalize(p.sex), Normalize(p.education), Normalize(p.remarks),
      Normalize(p.phone1), Normalize(p.phone2), Strip(p.email), Normalize(p.role),
      Some(householdId))
  }

  /** The account of the resident with key `residentId`: username and password as entered
      apart from surrounding whitespace, with no hashing. */
  function NewUser(p: UserPage, residentId: int): (r: User)
    ensures r.username == Strip(p.username) && r.password == Strip(p.password)
    ensures r.position == Normalize(p.position) && r.residentId == Some(residentId)
  {
    User(Strip(p.username), Strip(p.password), Normalize(p.position), Some(residentId))
  }

  predicate UsernameTaken(db: Db, username: string) {
    exists i :: 0 <= i < |db.users| && db.users[i].rec.username == username
  }

  /** `InitWizard.accept`. The commit is not guarded: if it raises, nothing is stored. */
  function Accept(db: Db, b: BarangayPage, h: HouseholdPage, r: ResidentPage, u: UserPage,
                  today: Date, accepted: bool): (o: Outcome)
    ensures o.status != Saved ==> o == Outcome(db, Rejected(CommitFailed))
    ensures o.status == Saved ==>
      && |o.db.barangays| == |db.barangays| + 1 && o.db.barangays[..|db.barangays|] == db.barangays
      && |o.db.households| == |db.households| + 1 && o.db.households[..|db.households|] == db.households
      && |o.db.residents| == |db.residents| + 1 && o.db.residents[..|db.residents|] == db.residents
      && |o.db.users| == |db.users| + 1 && o.db.users[..|db.users|] == db.users
      && o.db.blotters == db.blotters && o.db.certificates == db.certificates
    ensures o.status == Saved ==>
      var household := o.db.households[|db.households|];
      var resident := o.db.residents[|db.residents|];
      var user := o.db.users[|db.users|];
      && resident.rec.householdId == Some(household.id)
      && user.rec.residentId == Some(resident.id)
      && !HasId(db.households, household.id) && !HasId(db.residents, resident.id)
      && o.db.barangays[|db.barangays|].rec == NewBarangay(b)
      && household.rec == NewHousehold(h)
      && resident.rec == NewResident(r, household.id)
      && user.rec == NewUser(u, resident.id)
    ensures Valid(db) ==> Valid(o.db)
    ensures Valid(db) ==> (o.status == Saved <==> accepted && !UsernameTaken(db, Strip(u.username)))
  {
    var hid := NextId(db.households);
    var rid := NextId(db.residents);
    var after := db.(
      barangays := Insert(db.barangays, NewBarangay(b), today),
      households := Insert(db.households, NewHousehold(h), today),
      residents := Insert(db.residents, NewResident(r, hid), today),
      users := Insert(db.users, NewUser(u, rid), today));
    assert Valid(db) ==> Referential(after) by {
      if Valid(db) {
        AcceptKeepsReferences(db, after, hid, rid);
      }
    }
    assert Valid(db) ==> (Enforced(after) <==> !UsernameTaken(db, Strip(u.username))) by {
      if Valid(db) {
        AcceptUniqueness(db, after.users, NewUser(u, rid), today);
      }
    }
    Commit(db, after, accepted)
  }

  lemma AcceptKeepsReferences(db: Db, after: Db, hid: int, rid: int)
    requires Referential(db)
    requires hid == NextId(db.households) && rid == NextId(db.residents)
    requires forall k :: HasId(after.households, k) <==> HasId(db.households, k) || k == hid
    requires forall k :: HasId(after.residents, k) <==> HasId(db.residents, k) || k == rid
    requires |after.residents| == |db.residents| + 1 && after.residents[..|db.residents|] == db.residents
    requires after.residents[|db.residents|].rec.householdId == Some(hid)
    requires |after.users| == |db.users| + 1 && after.users[..|db.users|] == db.users
    requires after.users[|db.users|].rec.residentId == Some(rid)
    requires after.certificates == db.certificates
    ensures Referential(after)
  {
    forall i | 0 <= i < |after.residents|
      ensures RefersTo(after.residents[i].rec.householdId, after.households)
    {
      if i < |db.residents| {
        assert after.residents[i] == db.residents[i];
      }
    }
    forall i | 0 <= i < |after.users|
      ensures RefersTo(after.users[i].rec.residentId, after.residents)
    {
      if i < |db.users| {
        assert after.users[i] == db.users[i];
      }
    }
  }

  /** The new account clashes with a UNIQUE column exactly when its username is taken: its
      resident is new, so no stored account can point at it. */
  lemma AcceptUniqueness(db: Db, users: seq<Row<User>>, user: User, today: Date)
    requires Valid(db)
    requires users == Insert(db.users, user, today)
    requires user.residentId == Some(NextId(db.residents))
    ensures UniqueUsernames(users) && UniqueUserResidents(users) <==> !UsernameTaken(db, user.username)
  {
    var n := |db.users|;
    assert forall i :: 0 <= i < n ==> users[i] == db.users[i];
    forall i | 0 <= i < n && users[i].rec.residentId.Some?
      ensures users[i].rec.residentId != users[n].rec.residentId
    {
      assert RefersTo(db.users[i].rec.residentId, db.residents);
    }
    if UsernameTaken(db, user.username) {
      var i :| 0 <= i < n && db.users[i].rec.username == user.username;
      assert users[i].rec.username == users[n].rec.username;
    }
  }

  /** A stored text column that was required: present, without surrounding whitespace, in
      upper case, and equal to the entry as typed apart from that whitespace and letter case. */
  predicate NormalizedEntry(stored: string, entry: string) {
    stored != [] && IsTrimmed(stored) && IsUpperCase(stored) && SameIgnoringCase(stored, Strip(entry))
  }

  /** What `accept` stores after pages that passed validation: the required entries are
      present and normalized; username and password are present and only stripped, and the
      stored password is the confirmed one. */
  lemma AcceptStoresValidatedEntries(db: Db, b: BarangayPage, h: HouseholdPage, r: ResidentPage,
                                     u: UserPage, today: Date, accepted: bool)
    requires ValidateBarangay(b) == Pass && ValidateHousehold(h) == Pass
    requires ValidateResident(r) == Pass && ValidateUser(u) == Pass
    requires Accept(db, b, h, r, u, today, accepted).status == Saved
    ensures var o := Accept(db, b, h, r, u, today, accepted);
      var barangay := o.db.barangays[|db.barangays|].rec;
      var household := o.db.households[|db.households|].rec;
      var resident := o.db.residents[|db.residents|].rec;
      var user := o.db.users[|db.users|].rec;
      && NormalizedEntry(barangay.name, b.name)
      && NormalizedEntry(household.householdName, h.householdName)
      && NormalizedEntry(resident.firstName, r.firstName)
      && NormalizedEntry(resident.lastName, r.lastName)
      && NormalizedEntry(resident.citizenship, r.citizenship)
      && user.username != [] && IsTrimmed(user.username) && user.username == Strip(u.username)
      && user.password != [] && IsTrimmed(user.password) && user.password == Strip(u.password)
      && user.password == Strip(u.confirmPassword)
  {
    var o := Accept(db, b, h, r, u, today, accepted);
    var resident := o.db.residents[|db.residents|].rec;
    assert o.db.barangays[|db.barangays|].rec == NewBarangay(b);
    assert o.db.households[|db.households|].rec == NewHousehold(h);
    assert resident == NewResident(r, o.db.households[|db.households|].id);
    assert o.db.users[|db.users|].rec == NewUser(u, o.db.residents[|db.residents|].id);
    NormalizedEntryOf(b.name);
    NormalizedEntryOf(h.householdName);
    NormalizedEntryOf(r.firstName);
    NormalizedEntryOf(r.lastName);
    NormalizedEntryOf(r.citizenship);
  }

  lemma NormalizedEntryOf(entry: string)
    requires !AllSpace(entry)
    ensures NormalizedEntry(Normalize(entry), entry)
  {
  }

  /** Every entry of `items` is stripped and in upper case. */
  predicate AllNormal(items: seq<string>) {
    forall k :: 0 <= k < |items| ==> IsTrimmed(items[k]) && IsUpperCase(items[k])
  }

  lemma ListEntriesNormal(items: seq<string>, s: string)
    requires AllNormal(items) && s in items
    ensures Normalize(s) == s
  {
    NormalizeFixesNormalForm(s);
  }

  lemma SitiosNormal()
    ensures AllNormal(Sitios)
  {
  }

  lemma CivilStatusesNormal()
    ensures AllNormal(CivilStatuses)
  {
  }

  lemma SexesNormal()
    ensures AllNormal(Sexes)
  {
  }

  /** Evaluates the string literals of the first three education levels. */
  lemma EducationLevelsNormalA()
    ensures forall k :: 0 <= k < 3 ==> IsTrimmed(EducationLevels[k]) && IsUpperCase(EducationLevels[k])
  {
    var e := EducationLevels;
    assert IsTrimmed(e[0]) && IsUpperCase(e[0]);
    assert IsTrimmed(e[1]) && IsUpperCase(e[1]);
    assert IsTrimmed(e[2]) && IsUpperCase(e[2]);
  }

  /** Evaluates the string literals of the middle three education levels. */
  lemma EducationLevelsNormalB()
    ensures forall k :: 3 <= k < 6 ==> IsTrimmed(EducationLevels[k]) && IsUpperCase(EducationLevels[k])
  {
    var e := EducationLevels;
    assert IsTrimmed(e[3]) && IsUpperCase(e[3]);
    assert IsTrimmed(e[4]) && IsUpperCase(e[4]);
    assert IsTrimmed(e[5]) && IsUpperCase(e[5]);
  }

  /** Evaluates the string literals of the last three education levels. */
  lemma EducationLevelsNormalC()
    ensures forall k :: 6 <= k < 9 ==> IsTrimmed(EducationLevels[k]) && IsUpperCase(EducationLevels[k])
  {
    var e := EducationLevels;
    assert IsTrimmed(e[6]) && IsUpperCase(e[6]);
    assert IsTrimmed(e[7]) && IsUpperCase(e[7]);
    assert IsTrimmed(e[8]) && IsUpperCase(e[8]);
  }

  lemma EducationLevelsNormal()
    ensures AllNormal(EducationLevels)
  {
    EducationLevelsNormalA();
    EducationLevelsNormalB();
    EducationLevelsNormalC();
  }

  lemma PositionsNormal()
    ensures AllNormal(Positions)
  {
  }

  /** Evaluates the upper-case form of the literal "Head". */
  lemma UpperHead()
    ensures Upper("Head") == "HEAD"
  {
    var u := Upper("Head");
    assert u[0] == 'H' && u[1] == 'E' && u[2] == 'A' && u[3] == 'D';
  }

  /** Evaluates the upper-case form of the literal "Spouse". */
  lemma UpperSpouse()
    ensures Upper("Spouse") == "SPOUSE"
  {
    var u := Upper("Spouse");
    assert u[0] == 'S' && u[1] == 'P' && u[2] == 'O' && u[3] == 'U' && u[4] == 'S' && u[5] == 'E';
  }

  /** Evaluates the upper-case form of the literal "Child". */
  lemma UpperChild()
    ensures Upper("Child") == "CHILD"
  {
    var u := Upper("Child");
    assert u[0] == 'C' && u[1] == 'H' && u[2] == 'I' && u[3] == 'L' && u[4] == 'D';
  }

  /** A trimmed value is normalized by upper-casing alone. */
  lemma NormalizeTrimmed(s: string)
    requires IsTrimmed(s)
    ensures Normalize(s) == Upper(s)
  {
    StripRemovesPadding([], s, []);
    assert [] + s + [] == s;
  }

  /** The roles are offered in mixed case and stored in upper case. */
  lemma RolesStoredUpper(role: string)
    requires role in Roles
    ensures Normalize(role) in ["HEAD", "SPOUSE", "CHILD"]
  {
    if role == "Head" {
      NormalizeTrimmed("Head");
      UpperHead();
    } else if role == "Spouse" {
      NormalizeTrimmed("Spouse");
      UpperSpouse();
    } else {
      assert role == "Child";
      NormalizeTrimmed("Child");
      UpperChild();
    }
  }

  /** Choices made from the combo boxes are stored as entries of their lists; the roles, the
      one list offered in mixed case, are stored in upper case. */
  lemma AcceptStoresChoices(h: HouseholdPage, r: ResidentPage, u: UserPage, hid: int, rid: int)
    requires ChosenFromLists(h, r, u)
    ensures NewHousehold(h).sitio in Sitios
    ensures NewResident(r, hid).civilStatus in CivilStatuses
    ensures NewResident(r, hid).sex in Sexes
    ensures NewResident(r, hid).education in EducationLevels
    ensures NewResident(r, hid).role in ["HEAD", "SPOUSE", "CHILD"]
    ensures NewUser(u, rid).position in Positions
  {
    SitiosNormal();
    ListEntriesNormal(Sitios, h.sitio);
    CivilStatusesNormal();
    ListEntriesNormal(CivilStatuses, r.civilStatus);
    SexesNormal();
    ListEntriesNormal(Sexes, r.sex);
    EducationLevelsNormal();
    ListEntriesNormal(EducationLevels, r.education);
    PositionsNormal();
    ListEntriesNormal(Positions, u.position);
    RolesStoredUpper(r.role);
  }
}
